=== FILE: README.md ===
# Product-publishing, decision logic in Dafny

Product-publishing is a small Express/Mongoose backend where users sign up,
log in with a JSON Web Token, and publish, search, update and delete
products. This project models the parts of it that decide things:

- the accent-insensitive pattern builder `treatAccents`;
- the search-query translators of the product service, the user service and
  the user controller, with `page`/`limit` parsing;
- the owner guards of product delete and update;
- the sign-up, login and cascading delete of the user services and
  controller;
- the two revisions of the Bearer-token middleware.

Each source file is its own module. Revisions of the same file are not
merged:

| module | source file |
|---|---|
| `Accents` | src/utils/treatAccents.ts |
| `ProductService` | src/services/ProductService.ts |
| `UserService` | src/services/UserService.ts |
| `AppUserService` | src/app/services/UserService.ts |
| `AppUserController` | src/app/controllers/UserController.ts |
| `AppAuthMiddleware` | src/app/middlewares/AuthMiddleware.ts |
| `AuthMiddleware` | src/middlewares/AuthMiddleware.ts |

The modules share some support modules:

- `Js`: request values, truthiness, property access on a missing key, rest
  destructuring, `trim`, `split(' ')`.
- `Pagination`: the `page`/`limit` rule of both services.
- `Queries`: the filter objects handed to the store, as data. They get a
  simplified meaning over documents.
- `Store`: the collections. Users are a sequence in insertion order, which
  is the order `findOne` scans. Products are a map from id to owner and
  fields.
- `Tokens`: bcrypt and jwt as function parameters.
- `Bearer`: the header checks both middlewares share.

Regular-expression matching (`RegexTest`) and pattern construction
(`RegexSyntax`), schema validation (`Schema`), `JSON.parse`/`parseFloat`
(`Parsers`), bcrypt (`Hasher`, `Comparer`) and jwt
(`Signer`, `Verifier`) are parameters. The server's clock and secret live
inside the jwt parameters.

Four behaviours of the code are easy to misread:

- The middleware tests the header against `/^Bearer/`, a prefix. It does not
  require the scheme word to be exactly `Bearer`. So `BearerX token` passes
  the format check.
- Product update refuses only a truthy `_id` or `owner`. It does not check
  the fields against an allow-list of product properties.
- A `page` or `limit` that is already a number is accepted and used as it
  is. Only strings are checked against `^[1-9]\d*$`.
- The user schema trims the password before it is hashed, but login compares
  the password as sent. So a password signed up with surrounding white space
  cannot be used to log in as it was typed.

## Model

| member | source | states |
|---|---|---|
| Accents.TreatAccentsIsSubstitution | src/utils/treatAccents.ts:3-13 | The six replace passes equal one left-to-right substitution of each character by its group. No pass rewrites text that an earlier pass inserted. |
| Accents.SingleCharacter | src/utils/treatAccents.ts:3-13 | A character of a class (`a`/`A`/`à`–`å`/`À`–`Å`, and so on for the other five) becomes exactly that class's group. Any other character is kept. |
| Accents.UntargetedTextUnchanged | src/utils/treatAccents.ts:3-15 | Text with no targeted character comes back unchanged, regex metacharacters included. Nothing is escaped. |
| Accents.TreatAccentsLength | src/utils/treatAccents.ts:3-13 | The output grows by 10 characters per vowel and 6 per `c`/`ç`, so it is never shorter than the input. |
| Accents.DecodeTreatAccents | src/utils/treatAccents.ts:3-13 | Reading the groups back gives the input with each targeted character replaced by its plain lower-case letter. |
| Accents.SamePatternIffSameCanonical | src/utils/treatAccents.ts:3-13 | Two inputs give the same pattern if and only if they agree once accents and case of the targeted letters are dropped. |
| Accents.CaseDoesNotMatter | src/utils/treatAccents.ts:3-13 | Switching the case of one targeted letter does not change the output. |
| Pagination.ParseRoundTrip | src/services/ProductService.ts:62-63 | A string matching `^[1-9]\d*$` is the decimal numeral of the positive integer `parseInt` gives. |
| Pagination.NumeralRoundTrip | src/services/ProductService.ts:62-63 | Reading back the numeral of a positive integer gives that integer. |
| Pagination.ReadPagination | src/services/ProductService.ts:60-76 | Missing `page`/`limit` default to 1 and 10. A matching string becomes its positive integer. A number is used as it is. Any other string, or any other value, fails with its own message. `page` is checked first. |
| Pagination.Examples | src/services/ProductService.ts:62-63 | `"0"`, `"01"` and `"abc"` are refused and `"12"` reads as 12. |
| ProductService.Create | src/services/ProductService.ts:8-16 | The stored owner is the caller's `userId`, overriding any `owner` in the body. `userId` is not stored. The stored fields are exactly the body's keys other than `userId`, `owner` and `_id`, with their values. Other products are untouched. |
| ProductService.TreatSearchParams | src/services/ProductService.ts:28-57 | Each truthy value gives exactly one condition: `owner` equality, a case-insensitive `treatAccents(name)` pattern, all-of the parsed categories, and `price` below `maxPrice`. No `maxPrice` key comes out. An empty string adds nothing. It fails exactly for a non-string name, a name whose pattern does not compile (with the SyntaxError message), or an unparsable categories text. In that last case the message is the parser's own error text. |
| ProductService.Find | src/services/ProductService.ts:59-93 | Pagination errors come first. Then, in order: no search keys gives the unfiltered page, a truthy `_id` gives a lookup with other keys ignored, a key outside {owner, name, categories, maxPrice} gives the search error, and otherwise the translated filter, or the translation's error. Both the lookup by id and the paginated results populate the owner. |
| ProductService.FindSelectsWanted | src/services/ProductService.ts:36-56 | A paginated search selects a product if and only if it has the requested owner, a name matching the accent-insensitive pattern, every listed category and a price below `maxPrice`. With no search keys it selects every product. |
| ProductService.CategoriesExample | src/services/ProductService.ts:46-48 | One listed category selects both documents that carry it. Two categories select only the document carrying both. |
| ProductService.Delete | src/services/ProductService.ts:95-108 | A non-string `productId` fails with 'incorrect product id'. Otherwise only the product with that id and the caller as owner is removed. When there is none, it fails with 'No product is associated with this user' and nothing changes. |
| ProductService.Update | src/services/ProductService.ts:110-137 | Checks run in order: a string `productId`, then at least one field, then no truthy `_id`/`owner`, then schema, then ownership. A schema refusal gives its message, and no product with that id and owner gives 'the set of properties provided is not acceptable'. Success changes only the caller's product: the given fields take their new values and every other field is kept. No owner ever changes. |
| UserService.Create | src/services/UserService.ts:17-28 | A truthy `_id` fails with 'You can not specify your Id' before any write. Otherwise the store insert decides. A refusal passes the store's message through unchanged, and success returns the new id's token. |
| UserService.Login | src/services/UserService.ts:30-50 | A non-string or blank email fails first, then a blank password. A token is returned if and only if a user with that email exists and the password compares true. Both other causes give 'incorrect email or password'. |
| UserService.TreatAccents | src/services/UserService.ts:52-66 | The private copy agrees with the shared `treatAccents` on every input. |
| UserService.Find | src/services/UserService.ts:68-103 | Pagination errors come first. Then a truthy `_id` gives a lookup. Otherwise a string `simpleSearch` gives a name-OR-email pattern search, or the SyntaxError when its pattern does not compile. Otherwise the unfiltered page. |
| UserService.FindIgnoresOtherKeys | src/services/UserService.ts:87-102 | Adding or changing any key other than `page`, `limit`, `_id` and `simpleSearch` leaves the query unchanged. |
| UserService.SimpleSearchSelects | src/services/UserService.ts:91-100 | A simple search selects a user if and only if the accent-insensitive pattern matches the name or the email. |
| UserService.Delete | src/services/UserService.ts:105-112 | The users become exactly the store's delete-by-id of the caller, and the products become exactly those not owned by the caller. Afterwards no product has the caller as owner and, with unique ids, no user has the caller's id. |
| Store.InsertUser | src/app/models/User.ts:18-43 | Email and password go through the String cast and then the `trim` setter: strings are kept, numbers and booleans become their text, anything else is refused. Insert succeeds if and only if the schema accepts the document, both casts succeed, and no user has the trimmed email; a taken email gives the duplicate-key error. The new user is appended with the trimmed email and the hash of the trimmed password. Its profile is the document without `_id`, `email` and `password`. Unique emails and unique ids are preserved. |
| Store.FindUserByEmailAppend | src/app/models/User.ts:18-23 | A user appended with an email no one else has is the one `findOne` returns. |
| Store.DeleteUserByIdShape | src/services/UserService.ts:110 | When position `i` holds the first user with the id, deleting by id removes that position and keeps every other user, in order. |
| Store.DeleteUserByIdRemovesIt | src/services/UserService.ts:110 | With unique ids, deleting by id leaves no user with that id. |
| Js.TrimEmptyIffBlank | src/services/UserService.ts:33-39 | `trim()` gives `''` if and only if every character is white space. |
| Js.SplitJoin | src/app/middlewares/AuthMiddleware.ts:19 | `split(' ')` gives one more piece than there are spaces. No piece holds a space. Joining the pieces with spaces gives the text back. |
| AppUserService.Create | src/app/services/UserService.ts:16-27 | A truthy `_id` fails with 'You can not specify your Id' and nothing is written. Otherwise a store refusal passes its message through unchanged, and success returns the token signed for the new id. |
| AppUserService.Login | src/app/services/UserService.ts:29-49 | Email is checked before password, each for non-string or blank. A token is returned if and only if the user exists and the password compares true. Otherwise 'incorrect email or password'. |
| AppUserService.CreateThenLogin | src/app/services/UserService.ts:16-49 | After a successful sign-up, logging in with the same email and password returns the new account's token. This holds when comparing a password with its own hash succeeds and neither value has surrounding white space. |
| AppUserService.PaddedPasswordRefused | src/app/models/User.ts:24-43 | A password signed up with surrounding white space is hashed trimmed, so logging in with it as typed gives 'incorrect email or password'. This holds when a hash compares true only against the password it was made from. |
| AppUserService.Delete | src/app/services/UserService.ts:107-116 | A non-string `userId` changes nothing. A string id makes the products exactly those not owned by the caller and the users exactly the store's delete-by-id of the caller. |
| AppUserController.Create | src/app/controllers/UserController.ts:17-30 | A truthy `_id` gives 400 'You can not specify your Id'. Success gives 201 with the token. A store refusal gives 400 with its message and no write. |
| AppUserController.Login | src/app/controllers/UserController.ts:32-48 | A falsy email or password gives 400 'no email or password provided'. A 200 token if and only if the user exists and the password is a string that compares true. An unknown email, or a string password that compares false, gives 400 'incorrect email or password'. A password that is not a string, for a known email, gets no reply because the comparison throws. |
| AppUserController.LoginAgreesWithService | src/app/controllers/UserController.ts:32-48 | On non-blank string credentials the controller's login gives 200 with exactly the token the service's login returns, and otherwise 400 with the service's message. |
| AppUserController.Escape | src/app/controllers/UserController.ts:68 | The escaped text is one character longer for each character outside `[a-zA-Z0-9]`. |
| AppUserController.UnescapeEscape | src/app/controllers/UserController.ts:68 | Dropping the inserted backslashes recovers the input. |
| AppUserController.EscapeKeepsAlphanumerics | src/app/controllers/UserController.ts:68 | Alphanumeric text is unchanged. |
| AppUserController.Find | src/app/controllers/UserController.ts:50-88 | No search keys gives the unfiltered page, with `page`/`limit` passed through unchecked. Keys outside {_id, name, email}, or a non-string value, give the search error. This is checked before the `_id` lookup. Otherwise each key becomes a case-insensitive pattern of its escaped value. The lookup by id does not populate anything. |
| AppUserController.FindSelects | src/app/controllers/UserController.ts:66-80 | A paginated search selects a document if and only if, for every search key, the document holds text there that the escaped value's case-insensitive pattern matches. With no search keys it selects every document. |
| AppUserController.Delete | src/app/controllers/UserController.ts:90-102 | Products go first, then the user. A store error gives 400 with its message. Success gives 200, after which no product has the caller as owner and no user has its id. |
| Bearer.WellFormedMeaning | src/app/middlewares/AuthMiddleware.ts:19-23 | The format check passes if and only if the header starts with `Bearer` and holds exactly one space. The token is the whole text after that space. |
| Bearer.Examples | src/app/middlewares/AuthMiddleware.ts:19-23 | A header without the scheme is refused. `Bearer ` with nothing after it passes with an empty token. |
| AppAuthMiddleware.AuthVerification | src/app/middlewares/AuthMiddleware.ts:12-40 | Header, format, signature, then user-exists, each failing with its own 401 message. The request passes, with `userId` set and `next` called once, if and only if all four hold. A failure leaves the body untouched and never calls `next`. |
| AuthMiddleware.AuthVerification | src/middlewares/AuthMiddleware.ts:11-35 | Header, format, then signature, each failing with its own 401 message. A verified token passes with `userId` set and `next` called once, with no user check. |

## Left out

- Express wiring, routes and server start-up (src/app.ts, src/routes.ts, src/routes/privateRoutes.ts, src/app/routes): I/O plumbing.
- src/controllers/ProductController.ts: it maps a service success to 200/201 and any error to 400. src/app/controllers/ProductController.ts and src/controllers/UserController.ts pass requests straight to the store. None adds decisions of its own.
- Mongoose schemas: required fields, `minlength` and date bounds are the `Schema` parameter, which can only accept or refuse a document. The String cast and `trim` setter of email and password, and the email index, are modelled in `Store.InsertUser`.
- Store.InsertUser: the `name` field is stored as sent. Its String cast and `trim` setter are not applied, because nothing in the model reads it back except the search patterns.
- Store.DuplicateEmail: a taken email fails with a fixed stand-in message. MongoDB's E11000 text also names the collection, the index and the key value, which the model has no way to spell.
- Store.InsertUser: the older revision's src/models/User.ts is taken to behave like src/app/models/User.ts: the same `trim` setter, pre-save hash and unique email index. The older file is not part of this model.
- Store.InsertUser: a missing email or password, or one the String cast refuses (array, object, null), fails with the fixed message 'User validation failed'. Mongoose's message also names the path and the cast.
- AppUserController.Escape: it works on characters, while JavaScript works on UTF-16 code units. So a character above U+FFFF gets one backslash here, where the source puts one before each of its two surrogate halves.
- bcrypt and jwt: they are parameters, so token expiry and the secret are not modelled. `Tokens.GenerateToken` fixes the claims to the id and the 86400-second lifetime.
- Regular-expression matching and mongoose-paginate page windows: patterns are data, matching is the `RegexTest` parameter, and which page of results comes back is not modelled.
- JavaScript numbers are integers. `parseFloat` is a parameter returning an integer or NaN, and `JSON.parse` of categories is a parameter. `parseInt` precision loss on very long numerals is not modelled.
- Malformed ids: the store's cast errors for ids that are not ObjectIds are not modelled. Such an id simply matches nothing.
- A request value that is itself a query object (an operator such as `$ne` inside `email`) is matched by equality only. Query values are neither cast nor trimmed, so a login with a numeric email, or with an email padded with white space, finds no user.
- The services' store failures are not modelled. Only the user controller's `delete` takes store faults, because its replies depend on them.
- ProductService.Update: a falsy `owner` or `_id` in the patch is passed to the schema parameter and never rewrites the owner. Fields the strict schema would drop are kept in the modelled product.
- ProductService.Create: a caller-supplied `_id` is dropped and the model's fresh id is used. The store's handling of it is not modelled.
- The commented-out search of src/app/services/UserService.ts:51-105.
- Atomicity of the two-step cascade delete, and concurrent requests.

=== FILE: accents.dfy ===
/** The accent-insensitive pattern builder `treatAccents`: six global,
    case-insensitive `replace` passes, one per letter class, each turning a
    plain or accented letter into a regular-expression alternation group.

    Each pass's pattern (`a|[à-å]` and so on) matches exactly one character,
    so a global replace rewrites every matching character left to right and
    copies every other character. Under the `i` flag (non-Unicode mode) a
    character matches when its upper-case form equals that of a class member,
    so `[à-å]` also matches `À`–`Å`, and `a` also matches `A`. */
module Accents {
  import opened Js

  /** The six letter classes, in the order of the replace passes. */
  datatype Letter = A | E | I | O | U | C

  function Rank(k: Letter): nat {
    match k
    case A => 0
    case E => 1
    case I => 2
    case O => 3
    case U => 4
    case C => 5
  }

  /** The characters a pass's pattern matches, case-insensitively. */
  predicate InClass(k: Letter, c: char) {
    match k
    case A => c == 'a' || c == 'A' || 'à' <= c <= 'å' || 'À' <= c <= 'Å'
    case E => c == 'e' || c == 'E' || 'è' <= c <= 'ë' || 'È' <= c <= 'Ë'
    case I => c == 'i' || c == 'I' || 'ì' <= c <= 'ï' || 'Ì' <= c <= 'Ï'
    case O => c == 'o' || c == 'O' || 'ò' <= c <= 'ö' || 'Ò' <= c <= 'Ö'
    case U => c == 'u' || c == 'U' || 'ù' <= c <= 'ü' || 'Ù' <= c <= 'Ü'
    case C => c == 'c' || c == 'C' || c == 'ç' || c == 'Ç'
  }

  /** The plain lower-case letter that names a class. */
  function Plain(k: Letter): char {
    match k
    case A => 'a'
    case E => 'e'
    case I => 'i'
    case O => 'o'
    case U => 'u'
    case C => 'c'
  }

  /** The replacement text of a pass. */
  function Group(k: Letter): string {
    match k
    case A => "(?:a|[à-å])"
    case E => "(?:e|[è-ë])"
    case I => "(?:i|[ì-ï])"
    case O => "(?:o|[ò-ö])"
    case U => "(?:u|[ù-ü])"
    case C => "(?:c|ç)"
  }

  /** One `words.replace(/…/gi, Group(k))`. */
  function Pass(s: string, k: Letter): string
    decreases |s|
  {
    if s == "" then ""
    else (if InClass(k, s[0]) then Group(k) else [s[0]]) + Pass(s[1..], k)
  }

  /** `treatAccents(words)`: the six passes in source order. */
  function TreatAccents(words: string): string {
    Pass(Pass(Pass(Pass(Pass(Pass(words, A), E), I), O), U), C)
  }

  // ---------------------------------------------------------------------------
  // The reference definition: one left-to-right, per-character substitution.

  predicate Targeted(c: char) {
    InClass(A, c) || InClass(E, c) || InClass(I, c) || InClass(O, c) || InClass(U, c) || InClass(C, c)
  }

  function ClassOf(c: char): (k: Letter)
    requires Targeted(c)
    ensures InClass(k, c)
  {
    if InClass(A, c) then A
    else if InClass(E, c) then E
    else if InClass(I, c) then I
    else if InClass(O, c) then O
    else if InClass(U, c) then U
    else C
  }

  function Substitute(c: char): string {
    if Targeted(c) then Group(ClassOf(c)) else [c]
  }

  function SubstituteEach(s: string): string
    decreases |s|
  {
    if s == "" then "" else Substitute(s[0]) + SubstituteEach(s[1..])
  }

  /** The classes are disjoint. */
  lemma ClassesDisjoint(k: Letter, j: Letter, c: char)
    requires InClass(k, c) && InClass(j, c)
    ensures k == j
  {
  }

  lemma {:induction false} PassAppend(x: string, y: string, k: Letter)
    ensures Pass(x + y, k) == Pass(x, k) + Pass(y, k)
    decreases |x|
  {
    if x != "" {
      assert (x + y)[1..] == x[1..] + y;
      PassAppend(x[1..], y, k);
    } else {
      assert x + y == y;
    }
  }

  lemma {:induction false} PassKeepsUntargeted(s: string, k: Letter)
    requires forall i :: 0 <= i < |s| ==> !InClass(k, s[i])
    ensures Pass(s, k) == s
    decreases |s|
  {
    if s != "" {
      PassKeepsUntargeted(s[1..], k);
    }
  }

  /** A group inserted by one pass holds no character a later pass rewrites. */
  lemma GroupSurvivesLaterPass(k: Letter, j: Letter)
    requires Rank(k) < Rank(j)
    ensures Pass(Group(k), j) == Group(k)
  {
    var g := Group(k);
    forall i | 0 <= i < |g| ensures !InClass(j, g[i]) {
    }
    PassKeepsUntargeted(g, j);
  }

  lemma PassOnOne(c: char, k: Letter)
    ensures Pass([c], k) == if InClass(k, c) then Group(k) else [c]
  {
    assert [c][1..] == "";
  }

  lemma TreatAccentsOne(c: char)
    ensures TreatAccents([c]) == Substitute(c)
  {
    PassOnOne(c, A);
    var s1 := Pass([c], A);
    if InClass(A, c) {
      GroupSurvivesLaterPass(A, E);
      GroupSurvivesLaterPass(A, I);
      GroupSurvivesLaterPass(A, O);
      GroupSurvivesLaterPass(A, U);
      GroupSurvivesLaterPass(A, C);
      return;
    }
    PassOnOne(c, E);
    if InClass(E, c) {
      GroupSurvivesLaterPass(E, I);
      GroupSurvivesLaterPass(E, O);
      GroupSurvivesLaterPass(E, U);
      GroupSurvivesLaterPass(E, C);
      return;
    }
    PassOnOne(c, I);
    if InClass(I, c) {
      GroupSurvivesLaterPass(I, O);
      GroupSurvivesLaterPass(I, U);
      GroupSurvivesLaterPass(I, C);
      return;
    }
    PassOnOne(c, O);
    if InClass(O, c) {
      GroupSurvivesLaterPass(O, U);
      GroupSurvivesLaterPass(O, C);
      return;
    }
    PassOnOne(c, U);
    if InClass(U, c) {
      GroupSurvivesLaterPass(U, C);
      return;
    }
    PassOnOne(c, C);
  }

  lemma TreatAccentsAppend(x: string, y: string)
    ensures TreatAccents(x + y) == TreatAccents(x) + TreatAccents(y)
  {
    PassAppend(x, y, A);
    PassAppend(Pass(x, A), Pass(y, A), E);
    var x2, y2 := Pass(Pass(x, A), E), Pass(Pass(y, A), E);
    PassAppend(x2, y2, I);
    PassAppend(Pass(x2, I), Pass(y2, I), O);
    var x4, y4 := Pass(Pass(x2, I), O), Pass(Pass(y2, I), O);
    PassAppend(x4, y4, U);
    PassAppend(Pass(x4, U), Pass(y4, U), C);
  }

  /** No pass rewrites text an earlier pass inserted, so the six passes equal
      one left-to-right substitution of each character by its class's group. */
  lemma {:induction false} TreatAccentsIsSubstitution(s: string)
    ensures TreatAccents(s) == SubstituteEach(s)
    decreases |s|
  {
    if s == "" {
      assert TreatAccents(s) == "";
    } else {
      assert s == [s[0]] + s[1..];
      TreatAccentsAppend([s[0]], s[1..]);
      TreatAccentsOne(s[0]);
      TreatAccentsIsSubstitution(s[1..]);
    }
  }

  /** Each character of a class becomes exactly that class's group, and every
      other character, regular-expression metacharacters included, is copied. */
  lemma SingleCharacter(c: char)
    ensures forall k :: InClass(k, c) ==> TreatAccents([c]) == Group(k)
    ensures !Targeted(c) ==> TreatAccents([c]) == [c]
  {
    TreatAccentsOne(c);
    forall k | InClass(k, c) ensures TreatAccents([c]) == Group(k) {
      ClassesDisjoint(k, ClassOf(c), c);
    }
  }

  lemma {:induction false} SubstituteKeepsUntargeted(s: string)
    requires forall i :: 0 <= i < |s| ==> !Targeted(s[i])
    ensures SubstituteEach(s) == s
    decreases |s|
  {
    if s != "" {
      SubstituteKeepsUntargeted(s[1..]);
    }
  }

  /** Text with no targeted character comes out unchanged: nothing is escaped. */
  lemma UntargetedTextUnchanged(s: string)
    requires forall i :: 0 <= i < |s| ==> !Targeted(s[i])
    ensures TreatAccents(s) == s
  {
    TreatAccentsIsSubstitution(s);
    SubstituteKeepsUntargeted(s);
  }

  // ---------------------------------------------------------------------------
  // Growth of the output.

  function Count(s: string, k: Letter): nat
    decreases |s|
  {
    if s == "" then 0 else (if InClass(k, s[0]) then 1 else 0) + Count(s[1..], k)
  }

  lemma {:induction false} SubstituteLength(s: string)
    ensures |SubstituteEach(s)| == |s| + 10 * (Count(s, A) + Count(s, E) + Count(s, I) + Count(s, O) + Count(s, U)) + 6 * Count(s, C)
    decreases |s|
  {
    if s != "" {
      SubstituteLength(s[1..]);
      var c := s[0];
      if Targeted(c) {
        var k := ClassOf(c);
        forall j | j != k ensures !InClass(j, c) {
          if InClass(j, c) { ClassesDisjoint(j, k, c); }
        }
      }
    }
  }

  /** Each vowel of the five vowel classes grows the text by 10 characters
      (an 11-character group replaces it) and each `c`/`ç` by 6. */
  lemma TreatAccentsLength(s: string)
    ensures |TreatAccents(s)| == |s| + 10 * (Count(s, A) + Count(s, E) + Count(s, I) + Count(s, O) + Count(s, U)) + 6 * Count(s, C)
    ensures |TreatAccents(s)| >= |s|
  {
    TreatAccentsIsSubstitution(s);
    SubstituteLength(s);
  }

  // ---------------------------------------------------------------------------
  // Case and accent insensitivity: the output depends only on each
  // character's class.

  /** Each targeted character replaced by the plain letter of its class. */
  function Canonical(s: string): string
    decreases |s|
  {
    if s == "" then ""
    else (if Targeted(s[0]) then [Plain(ClassOf(s[0]))] else [s[0]]) + Canonical(s[1..])
  }

  /** The first group `r` begins with, if any, in pass order. */
  function LeadingGroup(r: string): Option<Letter> {
    if StartsWith(r, Group(A)) then Some(A)
    else if StartsWith(r, Group(E)) then Some(E)
    else if StartsWith(r, Group(I)) then Some(I)
    else if StartsWith(r, Group(O)) then Some(O)
    else if StartsWith(r, Group(U)) then Some(U)
    else if StartsWith(r, Group(C)) then Some(C)
    else None
  }

  /** Reads a built pattern back, one group or copied character at a time. */
  function Decode(r: string): string
    decreases |r|
  {
    if r == "" then ""
    else match LeadingGroup(r)
      case Some(k) => [Plain(k)] + Decode(r[|Group(k)|..])
      case None => [r[0]] + Decode(r[1..])
  }

  lemma GroupShape(k: Letter)
    ensures |Group(k)| >= 7
    ensures Group(k)[0] == '(' && Group(k)[1] == '?' && Group(k)[2] == ':'
    ensures Group(k)[3] == Plain(k) && InClass(k, Plain(k))
  {
  }

  lemma SubstituteHead(t: string)
    requires t != ""
    ensures SubstituteEach(t) == Substitute(t[0]) + SubstituteEach(t[1..])
    ensures SubstituteEach(t)[0] == if Targeted(t[0]) then '(' else t[0]
  {
    if Targeted(t[0]) { GroupShape(ClassOf(t[0])); }
  }

  /** A group at the head of a substituted text comes from a targeted head
      character: a copied `(?:` is never followed by a class letter, since that
      letter would itself have been substituted. */
  lemma {:induction false} GroupAtHead(t: string, k: Letter)
    requires StartsWith(SubstituteEach(t), Group(k))
    ensures t != "" && Targeted(t[0])
  {
    var g := Group(k);
    GroupShape(k);
    var r := SubstituteEach(t);
    if t == "" {
      assert false;
    }
    SubstituteHead(t);
    if !Targeted(t[0]) {
      assert r[0] == g[0] == '(';
      var t1 := t[1..];
      var r1 := SubstituteEach(t1);
      assert r == [t[0]] + r1;
      if t1 == "" { assert false; }
      SubstituteHead(t1);
      assert r1[0] == r[1] == '?';
      assert !Targeted(t1[0]);
      var t2 := t1[1..];
      var r2 := SubstituteEach(t2);
      assert r1 == [t1[0]] + r2;
      if t2 == "" { assert false; }
      SubstituteHead(t2);
      assert r2[0] == r[2] == ':';
      assert !Targeted(t2[0]);
      var t3 := t2[1..];
      var r3 := SubstituteEach(t3);
      assert r2 == [t2[0]] + r3;
      if t3 == "" { assert false; }
      SubstituteHead(t3);
      assert false;
    }
  }

  lemma LeadingGroupOf(c: char, rest: string)
    requires Targeted(c)
    ensures LeadingGroup(Group(ClassOf(c)) + rest) == Some(ClassOf(c))
  {
    var k := ClassOf(c);
    var r := Group(k) + rest;
    assert r[..|Group(k)|] == Group(k);
    GroupShape(k);
    forall j | j != k ensures !StartsWith(r, Group(j)) {
      GroupShape(j);
      assert r[3] == Plain(k);
    }
  }

  lemma {:induction false} DecodeSubstitution(s: string)
    ensures Decode(SubstituteEach(s)) == Canonical(s)
    decreases |s|
  {
    if s != "" {
      var r := SubstituteEach(s);
      var rest := SubstituteEach(s[1..]);
      SubstituteHead(s);
      DecodeSubstitution(s[1..]);
      if Targeted(s[0]) {
        var k := ClassOf(s[0]);
        LeadingGroupOf(s[0], rest);
        assert r[|Group(k)|..] == rest;
      } else {
        forall k ensures !StartsWith(r, Group(k)) {
          if StartsWith(r, Group(k)) { GroupAtHead(s, k); }
        }
        assert LeadingGroup(r) == None;
        assert r[1..] == rest;
      }
    }
  }

  /** Reading the pattern back recovers the input up to the class of each
      targeted character. */
  lemma DecodeTreatAccents(s: string)
    ensures Decode(TreatAccents(s)) == Canonical(s)
  {
    TreatAccentsIsSubstitution(s);
    DecodeSubstitution(s);
  }

  lemma {:induction false} SameCanonicalSameSubstitution(s: string, t: string)
    requires Canonical(s) == Canonical(t)
    ensures SubstituteEach(s) == SubstituteEach(t)
    decreases |s|
  {
    CanonicalLength(s);
    CanonicalLength(t);
    if s != "" {
      var cs, ct := Canonical(s), Canonical(t);
      assert cs[0] == ct[0];
      assert cs[1..] == Canonical(s[1..]);
      assert ct[1..] == Canonical(t[1..]);
      SameCanonicalSameSubstitution(s[1..], t[1..]);
      var a, b := s[0], t[0];
      if Targeted(a) && Targeted(b) {
        assert Plain(ClassOf(a)) == Plain(ClassOf(b));
      } else if Targeted(a) {
        assert b == Plain(ClassOf(a));
        GroupShape(ClassOf(a));
        assert false;
      } else if Targeted(b) {
        assert a == Plain(ClassOf(b));
        GroupShape(ClassOf(b));
        assert false;
      }
    }
  }

  lemma {:induction false} CanonicalLength(s: string)
    ensures |Canonical(s)| == |s|
    decreases |s|
  {
    if s != "" { CanonicalLength(s[1..]); }
  }

  /** Two inputs give the same pattern exactly when they agree up to the case
      and accent of their targeted letters. */
  lemma SamePatternIffSameCanonical(s: string, t: string)
    ensures TreatAccents(s) == TreatAccents(t) <==> Canonical(s) == Canonical(t)
  {
    TreatAccentsIsSubstitution(s);
    TreatAccentsIsSubstitution(t);
    if TreatAccents(s) == TreatAccents(t) {
      DecodeTreatAccents(s);
      DecodeTreatAccents(t);
    }
    if Canonical(s) == Canonical(t) {
      SameCanonicalSameSubstitution(s, t);
    }
  }

  /** The other-case form of a Latin-1 letter; other characters are unchanged. */
  function OtherCase(c: char): char {
    if 'a' <= c <= 'z' then (c as int - 32) as char
    else if 'A' <= c <= 'Z' then (c as int + 32) as char
    else if 'à' <= c <= 'þ' && c != '÷' then (c as int - 32) as char
    else if 'À' <= c <= 'Þ' && c != '×' then (c as int + 32) as char
    else c
  }

  lemma {:induction false} CanonicalUpdate(s: string, i: nat, c: char)
    requires i < |s|
    requires Targeted(s[i]) && Targeted(c) && ClassOf(s[i]) == ClassOf(c)
    ensures Canonical(s[i := c]) == Canonical(s)
    decreases |s|
  {
    if i > 0 {
      assert s[i := c][1..] == s[1..][i - 1 := c];
      CanonicalUpdate(s[1..], i - 1, c);
    }
  }

  /** Changing the case of one targeted letter does not change the pattern. */
  lemma CaseDoesNotMatter(s: string, i: nat)
    requires i < |s| && Targeted(s[i])
    ensures TreatAccents(s[i := OtherCase(s[i])]) == TreatAccents(s)
  {
    var c := s[i];
    var k := ClassOf(c);
    assert InClass(k, OtherCase(c));
    ClassesDisjoint(k, ClassOf(OtherCase(c)), OtherCase(c));
    CanonicalUpdate(s, i, OtherCase(c));
    SamePatternIffSameCanonical(s[i := OtherCase(c)], s);
  }
}

=== FILE: app_auth_middleware.dfy ===
/** `authVerification` of src/app/middlewares/AuthMiddleware.ts: header,
    format, signature, then the user must still exist; the first failing
    check decides the 401 message. */
module AppAuthMiddleware {
  import opened Js
  import opened Store
  import opened Bearer
  import Tokens

  const UnknownUser := "the token used does not belong to any user registered in the database"

  function Reject(body: Record, message: string): Handled {
    Handled(Some(Reply(401, Str(message))), body, 0)
  }

  function AuthVerification(header: Option<string>, body: Record, verify: Tokens.Verifier, users: seq<User>): (r: Handled)
    ensures Missing(header) ==> r == Reject(body, NoToken)
    ensures !Missing(header) && !WellFormed(header.value) ==> r == Reject(body, TokenError)
    ensures !Missing(header) && WellFormed(header.value) && verify(TokenOf(header.value)).None? ==> r == Reject(body, TokenInvalid)
    ensures (&& !Missing(header) && WellFormed(header.value) && verify(TokenOf(header.value)).Some?
             && FindUserById(users, verify(TokenOf(header.value)).value).None?)
            ==> r == Reject(body, UnknownUser)
    ensures r.reply.Some? ==> r.reply.value.status == 401 && r.body == body && r.nextCalls == 0
    ensures r.reply.None? <==>
      && !Missing(header) && WellFormed(header.value)
      && verify(TokenOf(header.value)).Some?
      && FindUserById(users, verify(TokenOf(header.value)).value).Some?
    ensures r.reply.None? ==>
      var id := verify(TokenOf(header.value)).value;
      && r.nextCalls == 1
      && r.body == body["userId" := id]
      && exists u :: u in users && Str(u.id) == id
  {
    match header
    case None => Reject(body, NoToken)
    case Some(h) =>
      if h == "" then Reject(body, NoToken)
      else if !WellFormed(h) then Reject(body, TokenError)
      else match verify(TokenOf(h))
        case None => Reject(body, TokenInvalid)
        case Some(id) =>
          if FindUserById(users, id).Some? then Handled(None, body["userId" := id], 1)
          else Reject(body, UnknownUser)
  }
}

=== FILE: app_user_controller.dfy ===
/** The user controller of src/app/controllers/UserController.ts, each
    handler a function from the request to the reply it sends. */
module AppUserController {
  import opened Js
  import opened Queries
  import opened Store
  import Tokens
  import AppUserService

  const IdNotAllowed := "You can not specify your Id"
  const NoCredentials := "no email or password provided"
  const BadCredentials := "incorrect email or password"
  const SearchError := "there is a problem with the search parameters"

  /** The search keys `find` accepts. */
  const Searchable: set<string> := {"_id", "name", "email"}

  /** `create`: 400 for a truthy `_id`, 201 with the token on success, and 400
      with the store's message when the store refuses. */
  function Create(users: seq<User>, body: Record, newId: Id, hash: Tokens.Hasher, schema: Schema, sign: Tokens.Signer): (r: (Reply, seq<User>))
    requires forall u :: u in users ==> u.id != newId
    ensures r.0.status == 201 || r.0.status == 400
    ensures Truthy(Get(body, "_id")) ==> r == (Reply(400, Str(IdNotAllowed)), users)
    ensures !Truthy(Get(body, "_id")) ==>
      var (created, users') := InsertUser(users, body, newId, hash, schema);
      && (r.0.status == 201 <==> created.Success?)
      && (created.Failure? ==> r.0.payload == Str(created.error))
      && r.1 == users'
    ensures r.0.status == 201 ==> r.0.payload == Str(Tokens.GenerateToken(sign, newId))
    ensures r.0.status == 400 ==> r.1 == users
  {
    if Truthy(Get(body, "_id")) then (Reply(400, Str(IdNotAllowed)), users)
    else
      var (created, users') := InsertUser(users, body, newId, hash, schema);
      match created
      case Success(id) => (Reply(201, Str(Tokens.GenerateToken(sign, id))), users')
      case Failure(e) => (Reply(400, Str(e)), users')
  }

  /** `login`: 400 when either field is falsy, the token when the stored hash
      matches, 400 otherwise. `None` is a rejected promise and no reply: a
      password that is not a string makes `bcrypt.compare` throw. */
  function Login(users: seq<User>, body: Record, compare: Tokens.Comparer, sign: Tokens.Signer): (r: Option<Reply>)
    ensures var email, password := Get(body, "email"), Get(body, "password");
      !Truthy(email) || !Truthy(password) ==> r == Some(Reply(400, Str(NoCredentials)))
    ensures var email, password := Get(body, "email"), Get(body, "password");
      Truthy(email) && Truthy(password) && FindUserByEmail(users, email).None? ==> r == Some(Reply(400, Str(BadCredentials)))
    ensures r.Some? && r.value.status == 200 <==>
      var email, password := Get(body, "email"), Get(body, "password");
      && Truthy(email) && password.Str? && password.s != ""
      && FindUserByEmail(users, email).Some?
      && compare(password.s, FindUserByEmail(users, email).value.passwordHash)
    ensures r.Some? && r.value.status == 200 ==>
      r.value.payload == Str(Tokens.GenerateToken(sign, FindUserByEmail(users, Get(body, "email")).value.id))
    ensures var email, password := Get(body, "email"), Get(body, "password");
      (&& Truthy(email) && password.Str? && password.s != ""
       && FindUserByEmail(users, email).Some?
       && !compare(password.s, FindUserByEmail(users, email).value.passwordHash))
      ==> r == Some(Reply(400, Str(BadCredentials)))
    ensures var email, password := Get(body, "email"), Get(body, "password");
      Truthy(email) && Truthy(password) && !password.Str? && FindUserByEmail(users, email).Some? ==> r.None?
    ensures r.Some? ==> r.value.status == 200 || r.value.status == 400
  {
    var email, password := Get(body, "email"), Get(body, "password");
    if !Truthy(email) || !Truthy(password) then Some(Reply(400, Str(NoCredentials)))
    else match FindUserByEmail(users, email)
      case None => Some(Reply(400, Str(BadCredentials)))
      case Some(u) =>
        if !password.Str? then None
        else if compare(password.s, u.passwordHash) then Some(Reply(200, Str(Tokens.GenerateToken(sign, u.id))))
        else Some(Reply(400, Str(BadCredentials)))
  }

  /** On non-blank string credentials the controller's login and the
      service's login agree: a token is a 200 reply, and the service's
      refusal is a 400 reply with the same message. */
  lemma LoginAgreesWithService(users: seq<User>, body: Record, compare: Tokens.Comparer, sign: Tokens.Signer)
    requires NonBlankString(Get(body, "email")) && NonBlankString(Get(body, "password"))
    ensures var service := AppUserService.Login(users, body, compare, sign);
      Login(users, body, compare, sign) ==
        Some(if service.Success? then Reply(200, Str(service.value)) else Reply(400, Str(service.error)))
  {
    NonBlankStringMeaning(Get(body, "email"));
    NonBlankStringMeaning(Get(body, "password"));
  }

  predicate IsAlphanumeric(c: char) {
    'a' <= c <= 'z' || 'A' <= c <= 'Z' || '0' <= c <= '9'
  }

  function CountOthers(s: string): nat
    decreases |s|
  {
    if s == "" then 0 else (if IsAlphanumeric(s[0]) then 0 else 1) + CountOthers(s[1..])
  }

  /** `value.replace(/[^a-zA-Z0-9]/g, c => '\\' + c)`. */
  function Escape(s: string): (r: string)
    ensures |r| == |s| + CountOthers(s)
    decreases |s|
  {
    if s == "" then ""
    else (if IsAlphanumeric(s[0]) then [s[0]] else ['\\', s[0]]) + Escape(s[1..])
  }

  /** Drops one backslash before each escaped character. */
  function Unescape(r: string): string
    decreases |r|
  {
    if r == "" then ""
    else if r[0] == '\\' && |r| >= 2 then [r[1]] + Unescape(r[2..])
    else [r[0]] + Unescape(r[1..])
  }

  /** Dropping the inserted backslashes gives the input back. */
  lemma {:induction false} UnescapeEscape(s: string)
    ensures Unescape(Escape(s)) == s
    decreases |s|
  {
    if s != "" {
      var rest := Escape(s[1..]);
      UnescapeEscape(s[1..]);
      if IsAlphanumeric(s[0]) {
        assert Escape(s) == [s[0]] + rest;
        assert s[0] != '\\';
        assert Escape(s)[1..] == rest;
      } else {
        assert Escape(s) == ['\\', s[0]] + rest;
        assert Escape(s)[2..] == rest;
      }
      assert s == [s[0]] + s[1..];
    }
  }

  /** Alphanumeric text is left as it is. */
  lemma {:induction false} EscapeKeepsAlphanumerics(s: string)
    requires forall i :: 0 <= i < |s| ==> IsAlphanumeric(s[i])
    ensures Escape(s) == s
    decreases |s|
  {
    if s != "" { EscapeKeepsAlphanumerics(s[1..]); }
  }

  /** `find`: with no search keys, the unfiltered page with `page` and `limit`
      passed through; otherwise the keys must be among `_id`, `name`, `email`
      with string values; then a truthy `_id` is looked up, and otherwise each
      value becomes a case-insensitive pattern of its escaped text. A failure
      is the 400 reply. */
  function Find(query: Record): (r: Result<Query<JsValue>>)
    ensures var params := Omit(query, {"page", "limit"});
      && (params == map[] ==> r == Success(Paginate(Everything, Get(query, "page"), Get(query, "limit"), false)))
      && (params != map[] ==>
            (r.Failure? <==> !(params.Keys <= Searchable && forall k :: k in params ==> params[k].Str?)))
      && (r.Failure? ==> r.error == SearchError)
      && (params != map[] && r.Success? && Truthy(Get(query, "_id")) ==> r.value == FindById(Get(query, "_id"), false))
      && (params != map[] && r.Success? && !Truthy(Get(query, "_id")) ==>
            && r.value.Paginate? && r.value.filter.AllOf?
            && r.value.page == Get(query, "page") && r.value.limit == Get(query, "limit")
            && r.value.filter.fields.Keys == params.Keys
            && forall k :: k in params ==> r.value.filter.fields[k] == Matches(Escape(params[k].s), true))
  {
    var page, limit := Get(query, "page"), Get(query, "limit");
    var params := Omit(query, {"page", "limit"});
    if params == map[] then Success(Paginate(Everything, page, limit, false))
    else if !(params.Keys <= Searchable && forall k :: k in params ==> params[k].Str?) then Failure(SearchError)
    else if Truthy(Get(params, "_id")) then Success(FindById(params["_id"], false))
    else
      var patterns := map k | k in params :: Matches(Escape(params[k].s), true);
      Success(Paginate(AllOf(patterns), page, limit, false))
  }

  /** A paginated search selects exactly the documents in which every search
      key holds text the escaped value's case-insensitive pattern matches;
      with no search keys, every document. */
  lemma FindSelects(query: Record, doc: Record, test: RegexTest)
    requires Find(query).Success? && Find(query).value.Paginate?
    ensures var params := Omit(query, {"page", "limit"});
      Selects(Find(query).value.filter, doc, test) <==>
        forall k :: k in params ==> Get(doc, k).Str? && test(Escape(params[k].s), true, Get(doc, k).s)
  {
  }

  /** The store errors the two calls of `delete` may raise. */
  datatype DeleteFaults = DeleteFaults(products: Option<string>, user: Option<string>)

  /** `delete`: removes the caller's products, then the caller, and replies
      200; a store error replies 400 with its message, with no rollback of a
      step already done. */
  function Delete(db: Db, body: Record, faults: DeleteFaults): (r: (Reply, Db))
    ensures var id := Get(body, "userId");
      && (faults.products.Some? ==> r == (Reply(400, Str(faults.products.value)), db))
      && (faults.products.None? ==> r.1.products == DeleteProductsOwnedBy(db.products, id))
      && (faults.products.None? && faults.user.Some? ==> r.0 == Reply(400, Str(faults.user.value)) && r.1.users == db.users)
      && (faults.products.None? && faults.user.None? ==> r.0 == Reply(200, Undefined) && r.1.users == DeleteUserById(db.users, id))
    ensures r.0.status == 200 ==>
      var id := Get(body, "userId");
      && (forall pid :: pid in r.1.products ==> r.1.products[pid].owner != id)
      && (IdsUnique(db.users) ==> FindUserById(r.1.users, id).None?)
  {
    var id := Get(body, "userId");
    match faults.products
    case Some(e) => (Reply(400, Str(e)), db)
    case None =>
      var products := DeleteProductsOwnedBy(db.products, id);
      match faults.user
      case Some(e) => (Reply(400, Str(e)), Db(db.users, products))
      case None =>
        DeleteRemovesWhenUnique(db.users, id);
        (Reply(200, Undefined), Db(DeleteUserById(db.users, id), products))
  }
}

=== FILE: app_user_service.dfy ===
/** The user service of src/app/services/UserService.ts (its live code; the
    commented-out search is not part of it): sign-up, login, and a delete
    that does nothing unless the caller id is a string. */
module AppUserService {
  import opened Js
  import opened Store
  import Tokens

  const IdNotAllowed := "You can not specify your Id"
  const NoEmail := "no email provided"
  const NoPassword := "no password provided"
  const BadCredentials := "incorrect email or password"

  /** `create(newUser)`: a truthy `_id` is refused before the store is touched;
      otherwise the token of the newly assigned id is returned. */
  function Create(users: seq<User>, newUser: Record, newId: Id, hash: Tokens.Hasher, schema: Schema, sign: Tokens.Signer): (r: (Result<string>, seq<User>))
    requires forall u :: u in users ==> u.id != newId
    ensures Truthy(Get(newUser, "_id")) ==> r == (Failure(IdNotAllowed), users)
    ensures !Truthy(Get(newUser, "_id")) ==>
      && (r.0.Success? <==> InsertUser(users, newUser, newId, hash, schema).0.Success?)
      && r.1 == InsertUser(users, newUser, newId, hash, schema).1
    ensures !Truthy(Get(newUser, "_id")) && InsertUser(users, newUser, newId, hash, schema).0.Failure?
      ==> r.0 == Failure(InsertUser(users, newUser, newId, hash, schema).0.error)
    ensures r.0.Success? ==> r.0.value == Tokens.GenerateToken(sign, newId)
    ensures r.0.Success? ==> |r.1| == |users| + 1 && r.1[|users|].id == newId
    ensures r.0.Failure? ==> r.1 == users
  {
    if Truthy(Get(newUser, "_id")) then (Failure(IdNotAllowed), users)
    else
      var (created, users') := InsertUser(users, newUser, newId, hash, schema);
      match created
      case Failure(e) => (Failure(e), users')
      case Success(id) => (Success(Tokens.GenerateToken(sign, id)), users')
  }

  /** `login(data)`: email, then password, then one generic refusal for an
      unknown email and for a wrong password alike. */
  function Login(users: seq<User>, data: Record, compare: Tokens.Comparer, sign: Tokens.Signer): (r: Result<string>)
    ensures var email := Get(data, "email");
      !(email.Str? && !Blank(email.s)) ==> r == Failure(NoEmail)
    ensures var email, password := Get(data, "email"), Get(data, "password");
      email.Str? && !Blank(email.s) && !(password.Str? && !Blank(password.s)) ==> r == Failure(NoPassword)
    ensures var email, password := Get(data, "email"), Get(data, "password");
      r.Success? <==>
        && email.Str? && !Blank(email.s) && password.Str? && !Blank(password.s)
        && FindUserByEmail(users, email).Some?
        && compare(password.s, FindUserByEmail(users, email).value.passwordHash)
    ensures r.Success? ==> r.value == Tokens.GenerateToken(sign, FindUserByEmail(users, Get(data, "email")).value.id)
    ensures var email, password := Get(data, "email"), Get(data, "password");
      r.Failure? && email.Str? && !Blank(email.s) && password.Str? && !Blank(password.s) ==> r.error == BadCredentials
  {
    var email, password := Get(data, "email"), Get(data, "password");
    NonBlankStringMeaning(email);
    NonBlankStringMeaning(password);
    if !NonBlankString(email) then Failure(NoEmail)
    else if !NonBlankString(password) then Failure(NoPassword)
    else match FindUserByEmail(users, email)
      case Some(u) =>
        if compare(password.s, u.passwordHash) then Success(Tokens.GenerateToken(sign, u.id))
        else Failure(BadCredentials)
      case None => Failure(BadCredentials)
  }

  /** Signing up and then logging in with the same email and password yields
      a token for the new account, when the hash compares true against the
      password it was made from and neither value has surrounding white space
      for the schema's `trim` to remove. */
  lemma CreateThenLogin(users: seq<User>, body: Record, newId: Id, hash: Tokens.Hasher, compare: Tokens.Comparer, schema: Schema, sign: Tokens.Signer)
    requires forall u :: u in users ==> u.id != newId
    requires forall p :: compare(p, hash(p))
    requires Create(users, body, newId, hash, schema, sign).0.Success?
    requires NonBlankString(Get(body, "email")) && NonBlankString(Get(body, "password"))
    requires Trim(Get(body, "email").s) == Get(body, "email").s
    requires Trim(Get(body, "password").s) == Get(body, "password").s
    ensures Login(Create(users, body, newId, hash, schema, sign).1, body, compare, sign) == Success(Tokens.GenerateToken(sign, newId))
  {
    var users' := Create(users, body, newId, hash, schema, sign).1;
    var email := Get(body, "email");
    assert users' == users + [users'[|users|]];
    FindUserByEmailAppend(users, users'[|users|], email);
    NonBlankStringMeaning(Get(body, "email"));
    NonBlankStringMeaning(Get(body, "password"));
  }

  /** A password signed up with surrounding white space is stored trimmed, so
      logging in with the password exactly as it was typed is refused, when
      the comparison accepts only the password a hash was made from. */
  lemma PaddedPasswordRefused(users: seq<User>, body: Record, newId: Id, hash: Tokens.Hasher, compare: Tokens.Comparer, schema: Schema, sign: Tokens.Signer)
    requires forall u :: u in users ==> u.id != newId
    requires forall p, q :: compare(p, hash(q)) <==> p == q
    requires Create(users, body, newId, hash, schema, sign).0.Success?
    requires NonBlankString(Get(body, "email")) && NonBlankString(Get(body, "password"))
    requires Trim(Get(body, "email").s) == Get(body, "email").s
    requires Trim(Get(body, "password").s) != Get(body, "password").s
    ensures Login(Create(users, body, newId, hash, schema, sign).1, body, compare, sign) == Failure(BadCredentials)
  {
    var users' := Create(users, body, newId, hash, schema, sign).1;
    var email, password := Get(body, "email"), Get(body, "password");
    assert users' == users + [users'[|users|]];
    FindUserByEmailAppend(users, users'[|users|], email);
    NonBlankStringMeaning(email);
    NonBlankStringMeaning(password);
    assert !compare(password.s, users'[|users|].passwordHash);
  }

  /** `delete(data)`: for a string id, removes the caller's products, then the
      caller; any other id changes nothing and is not an error. */
  function Delete(db: Db, data: Record): (r: Db)
    ensures !Get(data, "userId").Str? ==> r == db
    ensures Get(data, "userId").Str? ==>
      var id := Get(data, "userId");
      && (forall pid :: pid in r.products ==> r.products[pid].owner != id)
      && (forall pid :: pid in db.products && db.products[pid].owner != id ==> pid in r.products && r.products[pid] == db.products[pid])
      && (forall pid :: pid in r.products ==> pid in db.products)
      && (forall u :: u in r.users ==> u in db.users)
      && (forall u :: u in db.users && Str(u.id) != id ==> u in r.users)
      && (IdsUnique(db.users) ==> FindUserById(r.users, id).None?)
      && r.users == DeleteUserById(db.users, id)
      && r.products == DeleteProductsOwnedBy(db.products, id)
  {
    var id := Get(data, "userId");
    if id.Str? then
      var products := DeleteProductsOwnedBy(db.products, id);
      DeleteRemovesWhenUnique(db.users, id);
      Db(DeleteUserById(db.users, id), products)
    else db
  }
}

=== FILE: auth_middleware.dfy ===
/** `authVerification` of src/middlewares/AuthMiddleware.ts, the revision
    without the user-exists check: header, format, signature. */
module AuthMiddleware {
  import opened Js
  import opened Bearer
  import Tokens

  function Reject(body: Record, message: string): Handled {
    Handled(Some(Reply(401, Str(message))), body, 0)
  }

  function AuthVerification(header: Option<string>, body: Record, verify: Tokens.Verifier): (r: Handled)
    ensures Missing(header) ==> r == Reject(body, NoToken)
    ensures !Missing(header) && !WellFormed(header.value) ==> r == Reject(body, TokenError)
    ensures !Missing(header) && WellFormed(header.value) && verify(TokenOf(header.value)).None? ==> r == Reject(body, TokenInvalid)
    ensures r.reply.Some? ==> r.reply.value.status == 401 && r.body == body && r.nextCalls == 0
    ensures r.reply.None? <==> !Missing(header) && WellFormed(header.value) && verify(TokenOf(header.value)).Some?
    ensures r.reply.None? ==> r.nextCalls == 1 && r.body == body["userId" := verify(TokenOf(header.value)).value]
  {
    match header
    case None => Reject(body, NoToken)
    case Some(h) =>
      if h == "" then Reject(body, NoToken)
      else if !WellFormed(h) then Reject(body, TokenError)
      else match verify(TokenOf(h))
        case None => Reject(body, TokenInvalid)
        case Some(id) => Handled(None, body["userId" := id], 1)
  }
}

=== FILE: bearer.dfy ===
/** The part of `authVerification` both middleware revisions share: the
    `Authorization` header checks and the shape of a handled request. */
module Bearer {
  import opened Js

  const NoToken := "No token provided"
  const TokenError := "Token error"
  const TokenInvalid := "Token invalid"

  /** A request after the middleware ran: the reply it sent, if any, the body
      passed on to the next handler, and how many times `next` was called. */
  datatype Handled = Handled(reply: Option<Reply>, body: Record, nextCalls: nat)

  /** `!authentication`: the header is missing or empty. */
  predicate Missing(header: Option<string>) {
    header.None? || header.value == ""
  }

  /** `/^Bearer/.test(h) && h.split(' ').length === 2`. */
  predicate WellFormed(h: string) {
    StartsWith(h, "Bearer") && |SplitOnSpace(h)| == 2
  }

  /** `parts[1]`, the text handed to `jwt.verify`. */
  function TokenOf(h: string): string
    requires WellFormed(h)
  {
    SplitOnSpace(h)[1]
  }

  /** The format check passes exactly when the header starts with `Bearer`
      and holds exactly one space; the token is then the whole text after
      that space. */
  lemma WellFormedMeaning(h: string)
    ensures WellFormed(h) <==> StartsWith(h, "Bearer") && CountSpaces(h) == 1
    ensures WellFormed(h) ==>
      && h == SplitOnSpace(h)[0] + " " + TokenOf(h)
      && SpaceFree(SplitOnSpace(h)[0])
      && SpaceFree(TokenOf(h))
  {
    SplitJoin(h);
    if WellFormed(h) {
      var parts := SplitOnSpace(h);
      assert JoinWithSpace(parts) == parts[0] + " " + JoinWithSpace(parts[1..]);
      assert parts[1..] == [parts[1]];
    }
  }

  /** A header without the scheme, and the scheme with a trailing space only. */
  lemma Examples()
    ensures !WellFormed("abc.def")
    ensures WellFormed("Bearer ") && TokenOf("Bearer ") == ""
  {
    WellFormedMeaning("abc.def");
    assert !StartsWith("abc.def", "Bearer") by {
      assert "abc.def"[0] != "Bearer"[0];
    }
    var h := "Bearer ";
    SplitJoin(h);
    assert CountSpaces(h) == 1 by {
      assert h[6..] == " ";
      assert CountSpaces(h[6..]) == 1 by { assert h[6..][1..] == ""; }
      assert h[5..][1..] == h[6..];
      assert h[4..][1..] == h[5..];
      assert h[3..][1..] == h[4..];
      assert h[2..][1..] == h[3..];
      assert h[1..][1..] == h[2..];
    }
    WellFormedMeaning(h);
    assert h[..6] == "Bearer";
    var parts := SplitOnSpace(h);
    assert h == parts[0] + " " + parts[1];
    assert |parts[0]| + 1 + |parts[1]| == 7;
    assert parts[0] == h[..|parts[0]|];
    if |parts[1]| > 0 {
      assert false;
    }
  }
}

=== FILE: js.dfy ===
/** JavaScript values as they reach the request handlers (bodies, query strings,
    headers), together with the few language behaviours the handlers rely on:
    truthiness, property access on a missing key, rest destructuring,
    `String.prototype.trim` and `String.prototype.split(' ')`. */
module Js {

  /** A JSON-like value. JavaScript numbers are modelled as integers. */
  datatype JsValue =
    | Undefined
    | Null
    | Bool(b: bool)
    | Num(n: int)
    | Str(s: string)
    | Arr(items: seq<JsValue>)
    | Obj(props: map<string, JsValue>)

  /** A plain object such as `req.body` or `req.query`. */
  type Record = map<string, JsValue>

  datatype Option<+T> = None | Some(value: T)

  /** A settled promise: resolved with a value, or rejected with an Error message. */
  datatype Result<+T> = Success(value: T) | Failure(error: string)

  /** The result of `parseFloat`: a number, or NaN. */
  datatype Number = Finite(n: int) | NaN

  /** JavaScript truthiness, as `if (x)` and `!x` decide it. */
  predicate Truthy(v: JsValue) {
    match v
    case Undefined => false
    case Null => false
    case Bool(b) => b
    case Num(n) => n != 0
    case Str(s) => s != ""
    case Arr(_) => true
    case Obj(_) => true
  }

  /** Property access `r.k`: a missing key reads as `undefined`. */
  function Get(r: Record, k: string): JsValue {
    if k in r then r[k] else Undefined
  }

  /** Rest destructuring `const { k1, k2, ...rest } = r`. */
  function Omit(r: Record, keys: set<string>): (rest: Record)
    ensures rest.Keys == r.Keys - keys
    ensures forall k :: k in rest ==> rest[k] == r[k]
  {
    map k | k in r && k !in keys :: r[k]
  }

  /** The characters `trim` removes: WhiteSpace and LineTerminator of ECMA-262. */
  predicate IsWhitespace(c: char) {
    || c == '\t' || c == '\n' || c == '\U{000B}' || c == '\U{000C}' || c == '\r' || c == ' '
    || c == '\U{00A0}' || c == '\U{1680}' || '\U{2000}' <= c <= '\U{200A}'
    || c == '\U{2028}' || c == '\U{2029}' || c == '\U{202F}' || c == '\U{205F}'
    || c == '\U{3000}' || c == '\U{FEFF}'
  }

  predicate Blank(s: string) {
    forall i :: 0 <= i < |s| ==> IsWhitespace(s[i])
  }

  function TrimStart(s: string): string
    decreases |s|
  {
    if s != "" && IsWhitespace(s[0]) then TrimStart(s[1..]) else s
  }

  function TrimEnd(s: string): string
    decreases |s|
  {
    if s != "" && IsWhitespace(s[|s| - 1]) then TrimEnd(s[..|s| - 1]) else s
  }

  /** `s.trim()`. */
  function Trim(s: string): string {
    TrimEnd(TrimStart(s))
  }

  lemma {:induction false} TrimStartEmpty(s: string)
    ensures TrimStart(s) == "" <==> Blank(s)
    decreases |s|
  {
    if s != "" && IsWhitespace(s[0]) {
      TrimStartEmpty(s[1..]);
      assert Blank(s) <==> Blank(s[1..]) by {
        if Blank(s[1..]) {
          forall i | 0 <= i < |s| ensures IsWhitespace(s[i]) {
            if i > 0 { assert s[i] == s[1..][i - 1]; }
          }
        }
      }
    } else if s != "" {
      assert !IsWhitespace(s[0]);
    }
  }

  lemma {:induction false} TrimEndKeepsNonBlank(s: string)
    requires !Blank(s)
    ensures TrimEnd(s) != ""
    decreases |s|
  {
    if s != "" && IsWhitespace(s[|s| - 1]) {
      var k :| 0 <= k < |s| && !IsWhitespace(s[k]);
      assert k < |s| - 1;
      assert s[..|s| - 1][k] == s[k];
      TrimEndKeepsNonBlank(s[..|s| - 1]);
    }
  }

  /** `s.trim() === ''` exactly when every character of `s` is white space. */
  lemma TrimEmptyIffBlank(s: string)
    ensures Trim(s) == "" <==> Blank(s)
  {
    TrimStartEmpty(s);
    if TrimStart(s) != "" {
      TrimStartEmpty(s);
      var t := TrimStart(s);
      assert !Blank(t) by {
        TrimStartShape(s);
      }
      TrimEndKeepsNonBlank(t);
    }
  }

  lemma {:induction false} TrimStartShape(s: string)
    requires TrimStart(s) != ""
    ensures !IsWhitespace(TrimStart(s)[0])
    decreases |s|
  {
    if s != "" && IsWhitespace(s[0]) {
      TrimStartShape(s[1..]);
    }
  }

  /** `typeof v === 'string' && v.trim() !== ''`. */
  predicate NonBlankString(v: JsValue) {
    v.Str? && Trim(v.s) != ""
  }

  lemma NonBlankStringMeaning(v: JsValue)
    ensures NonBlankString(v) <==> v.Str? && !Blank(v.s)
  {
    if v.Str? { TrimEmptyIffBlank(v.s); }
  }

  function CountSpaces(s: string): nat
    decreases |s|
  {
    if s == "" then 0 else (if s[0] == ' ' then 1 else 0) + CountSpaces(s[1..])
  }

  /** `s.split(' ')`: the maximal space-free pieces between single spaces. */
  function SplitOnSpace(s: string): (parts: seq<string>)
    ensures |parts| >= 1
    decreases |s|
  {
    if s == "" then [""]
    else
      var rest := SplitOnSpace(s[1..]);
      if s[0] == ' ' then [""] + rest
      else [[s[0]] + rest[0]] + rest[1..]
  }

  /** `parts.join(' ')`. */
  function JoinWithSpace(parts: seq<string>): string
    requires |parts| >= 1
    decreases |parts|
  {
    if |parts| == 1 then parts[0] else parts[0] + " " + JoinWithSpace(parts[1..])
  }

  predicate SpaceFree(s: string) {
    forall i :: 0 <= i < |s| ==> s[i] != ' '
  }

  /** Splitting on spaces gives one more piece than there are spaces, no piece
      holds a space, and joining the pieces with spaces gives the text back. */
  lemma {:induction false} SplitJoin(s: string)
    ensures |SplitOnSpace(s)| == CountSpaces(s) + 1
    ensures forall j :: 0 <= j < |SplitOnSpace(s)| ==> SpaceFree(SplitOnSpace(s)[j])
    ensures JoinWithSpace(SplitOnSpace(s)) == s
    decreases |s|
  {
    if s != "" {
      var rest := SplitOnSpace(s[1..]);
      SplitJoin(s[1..]);
      var parts := SplitOnSpace(s);
      if s[0] == ' ' {
        assert parts == [""] + rest;
        assert parts[1..] == rest;
        assert JoinWithSpace(parts) == "" + " " + JoinWithSpace(rest);
        assert s == [s[0]] + s[1..];
      } else {
        assert parts == [[s[0]] + rest[0]] + rest[1..];
        forall j | 0 <= j < |parts| ensures SpaceFree(parts[j]) {
          if j == 0 {
            assert SpaceFree(rest[0]);
            forall i | 0 <= i < |parts[0]| ensures parts[0][i] != ' ' {
              if i > 0 { assert parts[0][i] == rest[0][i - 1]; }
            }
          } else {
            assert parts[j] == rest[j];
          }
        }
        if |rest| == 1 {
          assert JoinWithSpace(parts) == [s[0]] + rest[0];
        } else {
          assert parts[1..] == rest[1..];
          assert JoinWithSpace(parts) == ([s[0]] + rest[0]) + " " + JoinWithSpace(rest[1..]);
          assert JoinWithSpace(rest) == rest[0] + " " + JoinWithSpace(rest[1..]);
        }
        assert s == [s[0]] + s[1..];
      }
    }
  }

  predicate StartsWith(s: string, prefix: string) {
    |prefix| <= |s| && s[..|prefix|] == prefix
  }

  predicate IsDigit(c: char) {
    '0' <= c <= '9'
  }

  function DigitValue(c: char): nat
    requires IsDigit(c)
  {
    c as int - '0' as int
  }

  function DigitChar(d: nat): char
    requires d < 10
  {
    ('0' as int + d) as char
  }

  /** The decimal numeral of a positive integer, without leading zeros. */
  function Numeral(n: nat): string
    requires n >= 1
    decreases n
  {
    if n < 10 then [DigitChar(n)] else Numeral(n / 10) + [DigitChar(n % 10)]
  }

  /** `String(n)` for an integer: its decimal numeral, with a minus sign
      when negative. */
  function NumberToString(n: int): string {
    if n == 0 then "0" else if n < 0 then "-" + Numeral(-n) else Numeral(n)
  }

  /** The String cast a Mongoose schema applies to a written value: strings
      are kept, numbers and booleans become their `toString()`, and anything
      else is a cast error (`None`). */
  function CastToString(v: JsValue): (r: Option<string>)
    ensures v.Str? ==> r == Some(v.s)
    ensures r.Some? <==> v.Str? || v.Num? || v.Bool?
  {
    match v
    case Str(s) => Some(s)
    case Num(n) => Some(NumberToString(n))
    case Bool(b) => Some(if b then "true" else "false")
    case _ => None
  }

  /** A reply sent through `res.status(status).json(message)`. */
  datatype Reply = Reply(status: nat, payload: JsValue)
}

=== FILE: pagination.dfy ===
/** Reading the `page` and `limit` query parameters of the service `find`
    operations: `let { page = 1, limit = 10, ...searchParams } = data`, then a
    string matching `^[1-9]\d*$` is parsed with `parseInt`, a number is kept as
    it is, and anything else is rejected. `page` is read before `limit`. */
module Pagination {
  import opened Js

  const DefaultPage: int := 1
  const DefaultLimit: int := 10

  const PageError := "page must be an unsigned integer"
  const LimitError := "limit must be an unsigned integer"

  /** `s.match(/^[1-9]\d*$/)`. */
  predicate IsUnsignedNumeral(s: string) {
    |s| >= 1 && '1' <= s[0] <= '9' && forall i :: 1 <= i < |s| ==> IsDigit(s[i])
  }

  /** `parseInt` on a string of decimal digits. */
  function ParseDecimal(s: string): nat
    requires forall i :: 0 <= i < |s| ==> IsDigit(s[i])
    decreases |s|
  {
    if s == "" then 0 else 10 * ParseDecimal(s[..|s| - 1]) + DigitValue(s[|s| - 1])
  }

  /** Rendering a positive integer gives a numeral the pattern accepts, and
      parsing it gives the integer back. */
  lemma {:induction false} NumeralRoundTrip(n: nat)
    requires n >= 1
    ensures IsUnsignedNumeral(Numeral(n))
    ensures ParseDecimal(Numeral(n)) == n
    decreases n
  {
    if n >= 10 {
      NumeralRoundTrip(n / 10);
      var s := Numeral(n);
      assert s[..|s| - 1] == Numeral(n / 10);
      assert s[0] == Numeral(n / 10)[0];
    }
  }

  /** Every numeral the pattern accepts is the rendering of the positive
      integer it parses to: no two accepted strings denote the same value. */
  lemma {:induction false} ParseRoundTrip(s: string)
    requires IsUnsignedNumeral(s)
    ensures ParseDecimal(s) >= 1
    ensures Numeral(ParseDecimal(s)) == s
    decreases |s|
  {
    if |s| > 1 {
      var init := s[..|s| - 1];
      assert IsUnsignedNumeral(init) by {
        assert init[0] == s[0];
        forall i | 1 <= i < |init| ensures IsDigit(init[i]) { assert init[i] == s[i]; }
      }
      ParseRoundTrip(init);
      var v := ParseDecimal(init);
      var d := DigitValue(s[|s| - 1]);
      assert ParseDecimal(s) == 10 * v + d;
      assert (10 * v + d) / 10 == v && (10 * v + d) % 10 == d;
      assert DigitChar(d) == s[|s| - 1];
      assert s == init + [s[|s| - 1]];
    } else {
      assert ParseDecimal(s) == ParseDecimal("") * 10 + DigitValue(s[0]);
    }
  }

  /** The values one parameter may hold for the read to go through. */
  predicate Acceptable(v: JsValue) {
    v.Undefined? || v.Num? || (v.Str? && IsUnsignedNumeral(v.s))
  }

  function ReadArg(v: JsValue, default: int, error: string): (r: Result<int>)
    ensures r.Success? <==> Acceptable(v)
    ensures r.Failure? ==> r.error == error
    ensures v.Undefined? ==> r == Success(default)
    ensures v.Str? && r.Success? ==> r.value >= 1 && Numeral(r.value) == v.s
    ensures v.Num? ==> r == Success(v.n)
  {
    match v
    case Undefined => Success(default)
    case Num(n) => Success(n)
    case Str(s) =>
      if IsUnsignedNumeral(s) then
        ParseRoundTrip(s);
        Success(ParseDecimal(s))
      else Failure(error)
    case _ => Failure(error)
  }

  /** The page and limit a `find` call paginates with. */
  function ReadPagination(data: Record): (r: Result<(int, int)>)
    ensures r.Success? <==> Acceptable(Get(data, "page")) && Acceptable(Get(data, "limit"))
    ensures !Acceptable(Get(data, "page")) ==> r == Failure(PageError)
    ensures Acceptable(Get(data, "page")) && !Acceptable(Get(data, "limit")) ==> r == Failure(LimitError)
    ensures r.Success? && Get(data, "page").Undefined? ==> r.value.0 == DefaultPage
    ensures r.Success? && Get(data, "limit").Undefined? ==> r.value.1 == DefaultLimit
    ensures r.Success? && Get(data, "page").Str? ==> r.value.0 >= 1 && Numeral(r.value.0) == Get(data, "page").s
    ensures r.Success? && Get(data, "limit").Str? ==> r.value.1 >= 1 && Numeral(r.value.1) == Get(data, "limit").s
    ensures r.Success? && Get(data, "page").Num? ==> r.value.0 == Get(data, "page").n
    ensures r.Success? && Get(data, "limit").Num? ==> r.value.1 == Get(data, "limit").n
  {
    match ReadArg(Get(data, "page"), DefaultPage, PageError)
    case Failure(e) => Failure(e)
    case Success(page) =>
      match ReadArg(Get(data, "limit"), DefaultLimit, LimitError)
      case Failure(e) => Failure(e)
      case Success(limit) => Success((page, limit))
  }

  /** `"0"`, `"01"` and `"abc"` are refused; `"12"` reads as 12. */
  lemma Examples()
    ensures !IsUnsignedNumeral("0") && !IsUnsignedNumeral("01") && !IsUnsignedNumeral("abc")
    ensures ReadArg(Str("12"), DefaultPage, PageError) == Success(12)
  {
    assert ParseDecimal("1") == 1 by {
      assert "1"[..0] == "";
    }
    assert "12"[..1] == "1";
  }
}

=== FILE: product_service.dfy ===
/** The product service (src/services/ProductService.ts): creation with the
    owner taken from the authenticated caller, the search-query translator,
    and the owner-guarded delete and update. */
module ProductService {
  import opened Js
  import opened Queries
  import opened Store
  import Accents
  import Pagination

  /** The search keys `validateSearchParams` accepts. */
  const Searchable: set<string> := {"owner", "name", "categories", "maxPrice"}

  /** The keys a translated filter may hold. */
  const FilterKeys: set<string> := {"owner", "name", "categories", "price"}

  const SearchError := "there is a problem with the search parameters"
  const IncorrectProductId := "incorrect product id"
  const NotOwned := "No product is associated with this user"
  const NothingToUpdate := "no properties to update"
  const InvalidProperties := "invalid set of properties"
  const NotAcceptable := "the set of properties provided is not acceptable"
  /** The TypeError `treatAccents` raises on a value that is not a string. */
  const NotAString := "words.replace is not a function"

  /** `JSON.parse` of the categories text, `parseFloat` of `maxPrice`, and
      the construction of the name pattern. */
  datatype Parsers = Parsers(json: JsValue -> Result<seq<JsValue>>, float: JsValue -> Number, compile: RegexSyntax)

  /** The document `Product.create` receives: the body without `userId`, with
      `owner` set to the caller. */
  function NewProductDocument(data: Record): Record {
    Omit(data, {"userId"})["owner" := Get(data, "userId")]
  }

  /** `create(data)`: stores the product under a fresh identifier. */
  function Create(products: map<Id, Product>, data: Record, newId: Id, schema: Schema): (r: (Result<Id>, map<Id, Product>))
    requires newId !in products
    ensures r.0.Success? <==> schema(NewProductDocument(data)).None?
    ensures r.0.Failure? ==> r.1 == products
    ensures r.0.Success? ==> r.0.value == newId && r.1.Keys == products.Keys + {newId}
    ensures r.0.Success? ==>
      && r.1[newId].owner == Get(data, "userId")
      && "userId" !in r.1[newId].fields
      && "owner" !in r.1[newId].fields
    ensures r.0.Success? ==>
      forall k :: k in data && k !in {"userId", "owner", "_id"} ==> k in r.1[newId].fields && r.1[newId].fields[k] == data[k]
    ensures r.0.Success? ==> r.1[newId].fields.Keys == data.Keys - {"userId", "owner", "_id"}
    ensures forall id :: id in products ==> id in r.1 && r.1[id] == products[id]
  {
    var doc := NewProductDocument(data);
    match schema(doc)
    case Some(e) => (Failure(e), products)
    case None =>
      (Success(newId), products[newId := Product(doc["owner"], Omit(doc, {"owner", "_id"}))])
  }

  /** `validateSearchParams`: every key is searchable. */
  predicate ValidSearchParams(params: Record) {
    forall k :: k in params ==> k in Searchable
  }

  /** `treatmentOfSearchParams`: each truthy search value becomes one field
      condition; empty strings and other falsy values add nothing. */
  function TreatSearchParams(params: Record, parsers: Parsers): (r: Result<Conjunction>)
    ensures r.Success? ==> r.value.Keys <= FilterKeys
    ensures var name, cats := Get(params, "name"), Get(params, "categories");
      r.Failure? <==>
        || (Truthy(name) && !name.Str?)
        || (Truthy(name) && name.Str? && parsers.compile(Accents.TreatAccents(name.s)).Some?)
        || (Truthy(cats) && parsers.json(cats).Failure?)
    ensures var name := Get(params, "name");
      Truthy(name) && !name.Str? ==> r == Failure(NotAString)
    ensures var name, cats := Get(params, "name"), Get(params, "categories");
      (&& !(Truthy(name) && !name.Str?)
       && !(Truthy(name) && name.Str? && parsers.compile(Accents.TreatAccents(name.s)).Some?)
       && Truthy(cats) && parsers.json(cats).Failure?)
      ==> r == Failure(parsers.json(cats).error)
    ensures var name := Get(params, "name");
      Truthy(name) && name.Str? && parsers.compile(Accents.TreatAccents(name.s)).Some?
      ==> r == Failure(parsers.compile(Accents.TreatAccents(name.s)).value)
    ensures var owner := Get(params, "owner");
      r.Success? ==> ("owner" in r.value <==> Truthy(owner)) && (Truthy(owner) ==> r.value["owner"] == Equals(owner))
    ensures var name := Get(params, "name");
      r.Success? ==>
        && ("name" in r.value <==> Truthy(name))
        && (Truthy(name) ==> r.value["name"] == Matches(Accents.TreatAccents(name.s), true))
    ensures var cats := Get(params, "categories");
      r.Success? ==>
        && ("categories" in r.value <==> Truthy(cats))
        && (Truthy(cats) ==> r.value["categories"] == ContainsAll(parsers.json(cats).value))
    ensures var maxPrice := Get(params, "maxPrice");
      r.Success? ==>
        && ("price" in r.value <==> Truthy(maxPrice))
        && (Truthy(maxPrice) ==> r.value["price"] == LessThan(parsers.float(maxPrice)))
  {
    var owner, name, cats, maxPrice := Get(params, "owner"), Get(params, "name"), Get(params, "categories"), Get(params, "maxPrice");
    var withOwner: Conjunction := if Truthy(owner) then map["owner" := Equals(owner)] else map[];
    if Truthy(name) && !name.Str? then Failure(NotAString)
    else if Truthy(name) && parsers.compile(Accents.TreatAccents(name.s)).Some? then
      Failure(parsers.compile(Accents.TreatAccents(name.s)).value)
    else
      var withName := if Truthy(name) then withOwner["name" := Matches(Accents.TreatAccents(name.s), true)] else withOwner;
      if Truthy(cats) && parsers.json(cats).Failure? then Failure(parsers.json(cats).error)
      else
        var withCats := if Truthy(cats) then withName["categories" := ContainsAll(parsers.json(cats).value)] else withName;
        var withPrice := if Truthy(maxPrice) then withCats["price" := LessThan(parsers.float(maxPrice))] else withCats;
        Success(withPrice)
  }

  /** The search keys of a `find` call: everything but `page` and `limit`. */
  function SearchParams(data: Record): Record {
    Omit(data, {"page", "limit"})
  }

  /** `find(data)`: pagination, then the first of: no search keys, a truthy
      `_id`, a key outside the allow-list, and otherwise a translated filter. */
  function Find(data: Record, parsers: Parsers): (r: Result<Query<int>>)
    ensures Pagination.ReadPagination(data).Failure? ==> r == Failure(Pagination.ReadPagination(data).error)
    ensures var params := SearchParams(data);
      Pagination.ReadPagination(data).Success? ==>
        var (page, limit) := Pagination.ReadPagination(data).value;
        && (params == map[] ==> r == Success(Paginate(Everything, page, limit, true)))
        && (params != map[] && Truthy(Get(data, "_id")) ==> r == Success(FindById(Get(data, "_id"), true)))
        && (params != map[] && !Truthy(Get(data, "_id")) && !ValidSearchParams(params) ==> r == Failure(SearchError))
        && (r.Success? ==> r.value.populateOwner)
        && (r.Success? && r.value.Paginate? ==> r.value.page == page && r.value.limit == limit && r.value.populateOwner)
        && ((params != map[] && !Truthy(Get(data, "_id")) && ValidSearchParams(params)) ==>
              (r.Success? <==> TreatSearchParams(params, parsers).Success?)
              && (r.Failure? ==> r.error == TreatSearchParams(params, parsers).error)
              && (r.Success? ==> r.value == Paginate(AllOf(TreatSearchParams(params, parsers).value), page, limit, true)))
    ensures r.Success? && r.value.Paginate? ==> r.value.filter.AllOf? && r.value.filter.fields.Keys <= FilterKeys
    ensures r.Success? && r.value.Paginate? && SearchParams(data) != map[] ==> ValidSearchParams(SearchParams(data))
  {
    match Pagination.ReadPagination(data)
    case Failure(e) => Failure(e)
    case Success((page, limit)) =>
      var params := SearchParams(data);
      if params == map[] then Success(Paginate(Everything, page, limit, true))
      else if Truthy(Get(params, "_id")) then Success(FindById(params["_id"], true))
      else if !ValidSearchParams(params) then Failure(SearchError)
      else match TreatSearchParams(params, parsers)
        case Failure(e) => Failure(e)
        case Success(m) => Success(Paginate(AllOf(m), page, limit, true))
  }

  /** What the search keys of a `find` call ask of a product. */
  predicate Wanted(params: Record, parsers: Parsers, test: RegexTest, p: Product) {
    var owner, name, cats, maxPrice := Get(params, "owner"), Get(params, "name"), Get(params, "categories"), Get(params, "maxPrice");
    var pName, pCats, pPrice := Get(p.fields, "name"), Get(p.fields, "categories"), Get(p.fields, "price");
    && (Truthy(owner) ==> p.owner == owner)
    && (Truthy(name) && name.Str? ==> pName.Str? && test(Accents.TreatAccents(name.s), true, pName.s))
    && (Truthy(cats) && parsers.json(cats).Success? ==>
          var wanted := parsers.json(cats).value;
          |wanted| > 0 && pCats.Arr? && forall j :: 0 <= j < |wanted| ==> wanted[j] in pCats.items)
    && (Truthy(maxPrice) ==>
          var bound := parsers.float(maxPrice);
          bound.Finite? && pPrice.Num? && pPrice.n < bound.n)
  }

  /** A paginated `find` selects exactly the products with the owner, a name
      the accent-insensitive pattern matches, every listed category, and a
      price strictly below `maxPrice`, as its search keys ask; with no search
      keys, every product. */
  lemma FindSelectsWanted(data: Record, parsers: Parsers, test: RegexTest, p: Product)
    requires Find(data, parsers).Success? && Find(data, parsers).value.Paginate?
    ensures Selects(Find(data, parsers).value.filter, ProductDocument(p), test) <==> Wanted(SearchParams(data), parsers, test, p)
  {
    var params := SearchParams(data);
    var doc := ProductDocument(p);
    if params != map[] {
      var m := TreatSearchParams(params, parsers).value;
      assert Get(doc, "owner") == p.owner;
      assert Get(doc, "name") == Get(p.fields, "name");
      assert Get(doc, "categories") == Get(p.fields, "categories");
      assert Get(doc, "price") == Get(p.fields, "price");
      if SatisfiesAll(doc, m, test) {
        if "owner" in m { assert Satisfies(doc, "owner", m["owner"], test); }
        if "name" in m { assert Satisfies(doc, "name", m["name"], test); }
        if "categories" in m { assert Satisfies(doc, "categories", m["categories"], test); }
        if "price" in m { assert Satisfies(doc, "price", m["price"], test); }
      }
    }
  }

  /** `delete(data)`: removes the caller's product with the given id. */
  function Delete(products: map<Id, Product>, data: Record): (r: (Result<()>, map<Id, Product>))
    ensures !Get(data, "productId").Str? ==> r == (Failure(IncorrectProductId), products)
    ensures r.0.Success? <==> Get(data, "productId").Str? && OwnedBy(products, Get(data, "productId").s, Get(data, "userId"))
    ensures Get(data, "productId").Str? && r.0.Failure? ==> r.0.error == NotOwned
    ensures r.0.Failure? ==> r.1 == products
    ensures r.0.Success? ==> r.1 == products - {Get(data, "productId").s}
    ensures forall id :: id in products && id !in r.1 ==> products[id].owner == Get(data, "userId")
  {
    match Get(data, "productId")
    case Str(id) =>
      // Product.deleteOne({ owner: userId, _id: productId }), then deletedCount !== 1
      if OwnedBy(products, id, Get(data, "userId")) then (Success(()), products - {id})
      else (Failure(NotOwned), products)
    case _ => (Failure(IncorrectProductId), products)
  }

  /** The fields `update` passes to the store. */
  function UpdateFields(data: Record): Record {
    Omit(data, {"userId", "productId"})
  }

  /** `update(data)`: applies the remaining body fields to the caller's product. */
  function Update(products: map<Id, Product>, data: Record, schema: Schema): (r: (Result<()>, map<Id, Product>))
    ensures var info := UpdateFields(data);
      && (!Get(data, "productId").Str? ==> r.0 == Failure(IncorrectProductId))
      && (Get(data, "productId").Str? && info == map[] ==> r.0 == Failure(NothingToUpdate))
      && ((Get(data, "productId").Str? && info != map[] && (Truthy(Get(info, "_id")) || Truthy(Get(info, "owner"))))
            ==> r.0 == Failure(InvalidProperties))
    ensures var info := UpdateFields(data);
      r.0.Success? <==>
        && Get(data, "productId").Str?
        && info != map[]
        && !Truthy(Get(info, "_id")) && !Truthy(Get(info, "owner"))
        && schema(info).None?
        && OwnedBy(products, Get(data, "productId").s, Get(data, "userId"))
    ensures var info := UpdateFields(data);
      (Get(data, "productId").Str? && info != map[] && !Truthy(Get(info, "_id")) && !Truthy(Get(info, "owner")))
      ==> && (schema(info).Some? ==> r.0 == Failure(schema(info).value))
          && (schema(info).None? && !OwnedBy(products, Get(data, "productId").s, Get(data, "userId")) ==> r.0 == Failure(NotAcceptable))
    ensures r.0.Failure? ==> r.1 == products
    ensures r.1.Keys == products.Keys
    ensures forall id :: id in products ==> r.1[id].owner == products[id].owner
    ensures r.0.Success? ==>
      var pid := Get(data, "productId").s;
      && (forall id :: id in products && id != pid ==> r.1[id] == products[id])
      && (forall k :: k in UpdateFields(data) && k !in {"_id", "owner"} ==> k in r.1[pid].fields && r.1[pid].fields[k] == UpdateFields(data)[k])
      && (forall k :: k in products[pid].fields && k !in UpdateFields(data) ==> k in r.1[pid].fields && r.1[pid].fields[k] == products[pid].fields[k])
      && r.1[pid].fields.Keys == products[pid].fields.Keys + (UpdateFields(data).Keys - {"_id", "owner"})
  {
    var info := UpdateFields(data);
    match Get(data, "productId")
    case Str(id) =>
      if info == map[] then (Failure(NothingToUpdate), products)
      else if Truthy(Get(info, "_id")) || Truthy(Get(info, "owner")) then (Failure(InvalidProperties), products)
      else if schema(info).Some? then (Failure(schema(info).value), products)
      // Product.updateOne({ _id: productId, owner: userId }, information), then n === 0
      else if !OwnedBy(products, id, Get(data, "userId")) then (Failure(NotAcceptable), products)
      else
        var p := products[id];
        (Success(()), products[id := Product(p.owner, p.fields + Omit(info, {"_id", "owner"}))])
    case _ => (Failure(IncorrectProductId), products)
  }

  /** The category searches of the product search tests: one listed category
      selects both dolls, two select only the one carrying both. */
  lemma CategoriesExample(test: RegexTest)
    ensures var doll := map["categories" := Arr([Str("brinquedo"), Str("embalado")])];
      var puppet := map["categories" := Arr([Str("brinquedo"), Str("não embalado")])];
      && Satisfies(doll, "categories", ContainsAll([Str("brinquedo")]), test)
      && Satisfies(puppet, "categories", ContainsAll([Str("brinquedo")]), test)
      && Satisfies(doll, "categories", ContainsAll([Str("brinquedo"), Str("embalado")]), test)
      && !Satisfies(puppet, "categories", ContainsAll([Str("brinquedo"), Str("embalado")]), test)
  {
    var wanted := [Str("brinquedo"), Str("embalado")];
    var puppet := [Str("brinquedo"), Str("não embalado")];
    assert Str("embalado") != Str("não embalado");
    assert wanted[1] !in puppet;
  }
}

=== FILE: queries.dfy ===
/** The queries the search operations hand to the document store, as data:
    a filter object and the pagination options, or a lookup by identifier.
    A simplified matching relation gives the filters a meaning over documents;
    regular-expression matching itself is a parameter. */
module Queries {
  import opened Js

  /** One field condition of a filter object. */
  datatype Constraint =
    | Equals(value: JsValue)                      // { key: value }
    | Matches(pattern: string, ignoreCase: bool)  // { key: { $regex: new RegExp(pattern, flags) } }
    | ContainsAll(items: seq<JsValue>)            // { key: { $all: items } }
    | LessThan(bound: Number)                     // { key: { $lt: bound } }

  type Conjunction = map<string, Constraint>

  datatype Filter =
    | AllOf(fields: Conjunction)       // a plain filter object
    | AnyOf(branches: seq<Conjunction>) // { $or: branches }

  /** The empty filter object (and the `undefined` filter): every document. */
  const Everything: Filter := AllOf(map[])

  /** `Model.paginate(filter, { page, limit, populate })` or
      `Model.findById(id)`, with or without `.populate('owner')`. */
  datatype Query<P> =
    | Paginate(filter: Filter, page: P, limit: P, populateOwner: bool)
    | FindById(id: JsValue, populateOwner: bool)

  /** `new RegExp(pattern, flags).test(text)`. */
  type RegexTest = (string, bool, string) -> bool

  /** `new RegExp(pattern, 'i')` as a construction: `Some(message)` is the
      SyntaxError it throws for a malformed pattern, `None` that it compiles. */
  type RegexSyntax = string -> Option<string>

  predicate Satisfies(doc: Record, key: string, c: Constraint, test: RegexTest) {
    match c
    case Equals(v) => Get(doc, key) == v
    case Matches(p, i) => Get(doc, key).Str? && test(p, i, Get(doc, key).s)
    case ContainsAll(items) =>
      // MongoDB's `$all` with an empty list selects nothing.
      && |items| > 0
      && Get(doc, key).Arr?
      && forall j :: 0 <= j < |items| ==> items[j] in Get(doc, key).items
    case LessThan(b) =>
      && b.Finite?
      && Get(doc, key).Num?
      && Get(doc, key).n < b.n
  }

  predicate SatisfiesAll(doc: Record, m: Conjunction, test: RegexTest) {
    forall k :: k in m ==> Satisfies(doc, k, m[k], test)
  }

  /** Whether the store's query selects a document. */
  predicate Selects(f: Filter, doc: Record, test: RegexTest) {
    match f
    case AllOf(m) => SatisfiesAll(doc, m, test)
    case AnyOf(bs) => exists j :: 0 <= j < |bs| && SatisfiesAll(doc, bs[j], test)
  }
}

=== FILE: store.dfy ===
/** The document store the services and controllers call, reduced to the
    operations they use. Users are kept in natural (insertion) order, which is
    the order `findOne` scans; products are keyed by identifier. */
module Store {
  import opened Js

  type Id = string

  /** A stored user. The password is kept only as its hash. */
  datatype User = User(id: Id, email: string, passwordHash: string, profile: Record)

  /** A stored product: its owner reference and its other fields. */
  datatype Product = Product(owner: JsValue, fields: Record)

  datatype Db = Db(users: seq<User>, products: map<Id, Product>)

  /** Schema validation and casting on a write: `Some(message)` rejects. */
  type Schema = Record -> Option<string>

  const DuplicateEmail := "E11000 duplicate key error: email"
  const UserValidationFailed := "User validation failed"

  /** The product as a document, its owner reference included. */
  function ProductDocument(p: Product): Record {
    p.fields["owner" := p.owner]
  }

  predicate IdsUnique(users: seq<User>) {
    forall i, j :: 0 <= i < j < |users| ==> users[i].id != users[j].id
  }

  predicate EmailsUnique(users: seq<User>) {
    forall i, j :: 0 <= i < j < |users| ==> users[i].email != users[j].email
  }

  /** `User.findOne({ email })`: the first user whose email is `email`. */
  function FindUserByEmail(users: seq<User>, email: JsValue): (r: Option<User>)
    ensures r.Some? ==> r.value in users && Str(r.value.email) == email
    ensures r.None? ==> forall u :: u in users ==> Str(u.email) != email
    decreases |users|
  {
    if users == [] then None
    else if Str(users[0].email) == email then Some(users[0])
    else FindUserByEmail(users[1..], email)
  }

  /** A user appended after every user with a different email is the one
      `findOne` returns for its email. */
  lemma {:induction false} FindUserByEmailAppend(users: seq<User>, u: User, email: JsValue)
    requires FindUserByEmail(users, email).None? && Str(u.email) == email
    ensures FindUserByEmail(users + [u], email) == Some(u)
    decreases |users|
  {
    if users != [] {
      assert (users + [u])[1..] == users[1..] + [u];
      FindUserByEmailAppend(users[1..], u, email);
    } else {
      assert users + [u] == [u];
    }
  }

  /** `User.findById(id)`. */
  function FindUserById(users: seq<User>, id: JsValue): (r: Option<User>)
    ensures r.Some? ==> r.value in users && Str(r.value.id) == id
    ensures r.None? ==> forall u :: u in users ==> Str(u.id) != id
    decreases |users|
  {
    if users == [] then None
    else if Str(users[0].id) == id then Some(users[0])
    else FindUserById(users[1..], id)
  }

  /** `User.findByIdAndDelete(id)`: removes the first user whose id is `id`. */
  function DeleteUserById(users: seq<User>, id: JsValue): (r: seq<User>)
    ensures forall u :: u in r ==> u in users
    ensures FindUserById(users, id).None? ==> r == users
    ensures FindUserById(users, id).Some? ==> |r| == |users| - 1
    ensures forall u :: u in users && Str(u.id) != id ==> u in r
    decreases |users|
  {
    if users == [] then []
    else if Str(users[0].id) == id then users[1..]
    else [users[0]] + DeleteUserById(users[1..], id)
  }

  /** Deleting by id removes exactly the first user with that id and keeps
      every other user, in order. */
  lemma {:induction false} DeleteUserByIdShape(users: seq<User>, id: JsValue, i: nat)
    requires i < |users| && Str(users[i].id) == id
    requires forall j :: 0 <= j < i ==> Str(users[j].id) != id
    ensures DeleteUserById(users, id) == users[..i] + users[i + 1..]
    decreases |users|
  {
    if i == 0 {
      assert DeleteUserById(users, id) == users[1..];
      assert users[..0] + users[1..] == users[1..];
    } else {
      assert Str(users[0].id) != id;
      DeleteUserByIdShape(users[1..], id, i - 1);
      SpliceAfterHead(users, i);
    }
  }

  /** Removing position `i > 0` commutes with taking the head off. */
  lemma SpliceAfterHead<T>(s: seq<T>, i: nat)
    requires 0 < i < |s|
    ensures [s[0]] + (s[1..][..i - 1] + s[1..][i..]) == s[..i] + s[i + 1..]
  {
    assert s[1..][..i - 1] == s[1..i];
    assert s[1..][i..] == s[i + 1..];
    assert [s[0]] + s[1..i] == s[..i];
  }

  /** With unique identifiers, deleting by id leaves no user with that id. */
  lemma {:induction false} DeleteUserByIdRemovesIt(users: seq<User>, id: JsValue)
    requires IdsUnique(users)
    ensures FindUserById(DeleteUserById(users, id), id).None?
    decreases |users|
  {
    if users != [] {
      if Str(users[0].id) == id {
        forall u | u in users[1..] ensures Str(u.id) != id {
          var j :| 0 <= j < |users[1..]| && users[1..][j] == u;
          assert users[j + 1] == u;
        }
      } else {
        assert IdsUnique(users[1..]) by {
          forall i, j | 0 <= i < j < |users[1..]| ensures users[1..][i].id != users[1..][j].id {
            assert users[1..][i] == users[i + 1] && users[1..][j] == users[j + 1];
          }
        }
        DeleteUserByIdRemovesIt(users[1..], id);
      }
    }
  }

  lemma DeleteRemovesWhenUnique(users: seq<User>, id: JsValue)
    ensures IdsUnique(users) ==> FindUserById(DeleteUserById(users, id), id).None?
  {
    if IdsUnique(users) { DeleteUserByIdRemovesIt(users, id); }
  }

  /** The value a string field of the user schema stores: the String cast,
      then the `trim` setter. */
  function StoredText(v: JsValue): Option<string> {
    match CastToString(v)
    case Some(s) => Some(Trim(s))
    case None => None
  }

  /** `User.create(doc)`: validation, the String cast and `trim` setter of
      email and password, the unique email index, the password hash taken in
      the pre-save hook of the trimmed password. */
  function InsertUser(users: seq<User>, doc: Record, newId: Id, hash: string -> string, schema: Schema): (r: (Result<Id>, seq<User>))
    requires forall u :: u in users ==> u.id != newId
    ensures var email, password := StoredText(Get(doc, "email")), StoredText(Get(doc, "password"));
      r.0.Success? <==>
        && schema(doc).None?
        && email.Some? && password.Some?
        && FindUserByEmail(users, Str(email.value)).None?
    ensures r.0.Failure? ==> r.1 == users
    ensures r.0.Failure? && schema(doc).Some? ==> r.0.error == schema(doc).value
    ensures var email, password := StoredText(Get(doc, "email")), StoredText(Get(doc, "password"));
      (schema(doc).None? && email.Some? && password.Some? && FindUserByEmail(users, Str(email.value)).Some?)
      ==> r.0 == Failure(DuplicateEmail)
    ensures r.0.Success? ==>
      && r.0.value == newId
      && |r.1| == |users| + 1 && r.1[..|users|] == users
      && r.1[|users|].id == newId
      && r.1[|users|].email == Trim(CastToString(Get(doc, "email")).value)
      && r.1[|users|].passwordHash == hash(Trim(CastToString(Get(doc, "password")).value))
      && r.1[|users|].profile == Omit(doc, {"_id", "email", "password"})
    ensures EmailsUnique(users) ==> EmailsUnique(r.1)
    ensures IdsUnique(users) ==> IdsUnique(r.1)
  {
    if schema(doc).Some? then (Failure(schema(doc).value), users)
    else match (StoredText(Get(doc, "email")), StoredText(Get(doc, "password")))
      case (Some(email), Some(password)) =>
        if FindUserByEmail(users, Str(email)).Some? then (Failure(DuplicateEmail), users)
        else
          var u := User(newId, email, hash(password), Omit(doc, {"_id", "email", "password"}));
          assert (users + [u])[..|users|] == users;
          (Success(newId), users + [u])
      case _ => (Failure(UserValidationFailed), users)
  }

  /** `Product.deleteMany({ owner })`. */
  function DeleteProductsOwnedBy(products: map<Id, Product>, owner: JsValue): (r: map<Id, Product>)
    ensures forall id :: id in r <==> id in products && products[id].owner != owner
    ensures forall id :: id in r ==> r[id] == products[id]
  {
    map id | id in products && products[id].owner != owner :: products[id]
  }

  /** Whether the filter `{ _id: id, owner }` selects a product. */
  predicate OwnedBy(products: map<Id, Product>, id: Id, owner: JsValue) {
    id in products && products[id].owner == owner
  }
}

=== FILE: tokens.dfy ===
/** The credential and token collaborators, as uninterpreted functions the
    operations receive: `bcrypt.hash`/`bcrypt.compare` and
    `jwt.sign`/`jwt.verify` with the server's secret built in. */
module Tokens {
  import opened Js

  /** What `generateToken` hands to `jwt.sign`: the payload `{ id }` and the
      `expiresIn` option, in seconds. */
  datatype Claims = Claims(id: string, expiresIn: nat)

  /** Tokens expire one day after they are issued. */
  const Lifetime: nat := 86400

  type Signer = Claims -> string

  /** `bcrypt.hash(plain, 10)`. */
  type Hasher = string -> string

  /** `bcrypt.compare(plain, hash)`. */
  type Comparer = (string, string) -> bool

  /** `jwt.verify(token, secret)`: the decoded payload's `id`, or `None` when the
      signature or the expiry is rejected. */
  type Verifier = string -> Option<JsValue>

  /** `generateToken(id)`, shared by the user services and the user controller. */
  function GenerateToken(sign: Signer, id: string): string {
    sign(Claims(id, Lifetime))
  }
}

=== FILE: user_service.dfy ===
/** The user service of src/services/UserService.ts: sign-up refusing a
    caller-chosen id, login, the simple search with its own copy of
    `treatAccents`, and the cascading delete. */
module UserService {
  import opened Js
  import opened Queries
  import opened Store
  import Tokens
  import Accents
  import Pagination

  const IdNotAllowed := "You can not specify your Id"
  const NoEmail := "no email provided"
  const NoPassword := "no password provided"
  const BadCredentials := "incorrect email or password"

  /** `create(newUser)`: a truthy `_id` is refused before the store is touched;
      otherwise the new user's token is returned. */
  function Create(users: seq<User>, newUser: Record, newId: Id, hash: Tokens.Hasher, schema: Schema, sign: Tokens.Signer): (r: (Result<string>, seq<User>))
    requires forall u :: u in users ==> u.id != newId
    ensures Truthy(Get(newUser, "_id")) ==> r == (Failure(IdNotAllowed), users)
    ensures !Truthy(Get(newUser, "_id")) ==>
      && (r.0.Success? <==> InsertUser(users, newUser, newId, hash, schema).0.Success?)
      && r.1 == InsertUser(users, newUser, newId, hash, schema).1
    ensures !Truthy(Get(newUser, "_id")) && InsertUser(users, newUser, newId, hash, schema).0.Failure?
      ==> r.0 == Failure(InsertUser(users, newUser, newId, hash, schema).0.error)
    ensures r.0.Success? ==> r.0.value == Tokens.GenerateToken(sign, newId)
    ensures r.0.Success? ==> |r.1| == |users| + 1 && r.1[|users|].id == newId
    ensures r.0.Failure? ==> r.1 == users
  {
    if Truthy(Get(newUser, "_id")) then (Failure(IdNotAllowed), users)
    else
      var (created, users') := InsertUser(users, newUser, newId, hash, schema);
      match created
      case Failure(e) => (Failure(e), users')
      case Success(id) => (Success(Tokens.GenerateToken(sign, id)), users')
  }

  /** `login(data)`: email, then password, then one generic refusal for an
      unknown email and for a wrong password alike. */
  function Login(users: seq<User>, data: Record, compare: Tokens.Comparer, sign: Tokens.Signer): (r: Result<string>)
    ensures var email := Get(data, "email");
      !(email.Str? && !Blank(email.s)) ==> r == Failure(NoEmail)
    ensures var email, password := Get(data, "email"), Get(data, "password");
      email.Str? && !Blank(email.s) && !(password.Str? && !Blank(password.s)) ==> r == Failure(NoPassword)
    ensures var email, password := Get(data, "email"), Get(data, "password");
      r.Success? <==>
        && email.Str? && !Blank(email.s) && password.Str? && !Blank(password.s)
        && FindUserByEmail(users, email).Some?
        && compare(password.s, FindUserByEmail(users, email).value.passwordHash)
    ensures r.Success? ==> r.value == Tokens.GenerateToken(sign, FindUserByEmail(users, Get(data, "email")).value.id)
    ensures var email, password := Get(data, "email"), Get(data, "password");
      r.Failure? && email.Str? && !Blank(email.s) && password.Str? && !Blank(password.s) ==> r.error == BadCredentials
  {
    var email, password := Get(data, "email"), Get(data, "password");
    NonBlankStringMeaning(email);
    NonBlankStringMeaning(password);
    if !NonBlankString(email) then Failure(NoEmail)
    else if !NonBlankString(password) then Failure(NoPassword)
    else match FindUserByEmail(users, email)
      case Some(u) =>
        if compare(password.s, u.passwordHash) then Success(Tokens.GenerateToken(sign, u.id))
        else Failure(BadCredentials)
      case None => Failure(BadCredentials)
  }

  /** The service's private `treatAccents`: the same six passes. */
  function TreatAccents(words: string): (r: string)
    ensures r == Accents.TreatAccents(words)
  {
    var words := Accents.Pass(words, Accents.A);
    var words := Accents.Pass(words, Accents.E);
    var words := Accents.Pass(words, Accents.I);
    var words := Accents.Pass(words, Accents.O);
    var words := Accents.Pass(words, Accents.U);
    Accents.Pass(words, Accents.C)
  }

  /** The `$or` filter of a simple search. */
  function SimpleSearchFilter(text: string): Filter {
    var pattern := Matches(TreatAccents(text), true);
    AnyOf([map["name" := pattern], map["email" := pattern]])
  }

  /** `find(data)`: pagination, then a truthy `_id`, then a string
      `simpleSearch`, whose pattern must compile; every other key is ignored. */
  function Find(data: Record, compile: RegexSyntax): (r: Result<Query<int>>)
    ensures Pagination.ReadPagination(data).Failure? ==> r == Failure(Pagination.ReadPagination(data).error)
    ensures var text := Get(data, "simpleSearch");
      Pagination.ReadPagination(data).Success? ==>
        (r.Failure? <==> !Truthy(Get(data, "_id")) && text.Str? && compile(TreatAccents(text.s)).Some?)
    ensures var text := Get(data, "simpleSearch");
      (Pagination.ReadPagination(data).Success? && !Truthy(Get(data, "_id")) && text.Str? && compile(TreatAccents(text.s)).Some?)
      ==> r == Failure(compile(TreatAccents(text.s)).value)
    ensures r.Success? ==>
      var (page, limit) := Pagination.ReadPagination(data).value;
      && (Truthy(Get(data, "_id")) ==> r.value == FindById(Get(data, "_id"), false))
      && (!Truthy(Get(data, "_id")) ==> r.value.Paginate? && r.value.page == page && r.value.limit == limit && !r.value.populateOwner)
      && (!Truthy(Get(data, "_id")) && Get(data, "simpleSearch").Str? ==> r.value.filter == SimpleSearchFilter(Get(data, "simpleSearch").s))
      && (!Truthy(Get(data, "_id")) && !Get(data, "simpleSearch").Str? ==> r.value.filter == Everything)
  {
    match Pagination.ReadPagination(data)
    case Failure(e) => Failure(e)
    case Success((page, limit)) =>
      var params := Omit(data, {"page", "limit"});
      if Truthy(Get(params, "_id")) then Success(FindById(params["_id"], false))
      else match Get(params, "simpleSearch")
        case Str(text) =>
          if compile(TreatAccents(text)).Some? then Failure(compile(TreatAccents(text)).value)
          else Success(Paginate(SimpleSearchFilter(text), page, limit, false))
        case _ => Success(Paginate(Everything, page, limit, false))
  }

  /** Keys other than `page`, `limit`, `_id` and `simpleSearch` do not change
      the query. */
  lemma FindIgnoresOtherKeys(data: Record, compile: RegexSyntax, k: string, v: JsValue)
    requires k !in {"page", "limit", "_id", "simpleSearch"}
    ensures Find(data[k := v], compile) == Find(data, compile)
  {
    var d := data[k := v];
    assert Get(d, "page") == Get(data, "page") && Get(d, "limit") == Get(data, "limit");
    assert Get(d, "_id") == Get(data, "_id") && Get(d, "simpleSearch") == Get(data, "simpleSearch");
  }

  /** The user as a document. */
  function UserDocument(u: User): Record {
    u.profile["email" := Str(u.email)]
  }

  /** A simple search selects a user when the accent-insensitive pattern
      matches the name or the email. */
  lemma SimpleSearchSelects(text: string, u: User, test: RegexTest)
    ensures var doc, p := UserDocument(u), Accents.TreatAccents(text);
      Selects(SimpleSearchFilter(text), doc, test) <==>
        (Get(doc, "name").Str? && test(p, true, Get(doc, "name").s)) || test(p, true, u.email)
  {
    var doc, f := UserDocument(u), SimpleSearchFilter(text);
    var byName, byEmail := f.branches[0], f.branches[1];
    assert SatisfiesAll(doc, byName, test) <==> Satisfies(doc, "name", byName["name"], test);
    assert SatisfiesAll(doc, byEmail, test) <==> Satisfies(doc, "email", byEmail["email"], test);
    if Selects(f, doc, test) {
      var j :| 0 <= j < |f.branches| && SatisfiesAll(doc, f.branches[j], test);
      assert j == 0 || j == 1;
    }
  }

  /** `delete(data)`: removes the caller's products, then the caller. */
  function Delete(db: Db, data: Record): (r: Db)
    ensures var id := Get(data, "userId");
      && (forall pid :: pid in r.products ==> r.products[pid].owner != id)
      && (forall pid :: pid in db.products && db.products[pid].owner != id ==> pid in r.products && r.products[pid] == db.products[pid])
      && (forall pid :: pid in r.products ==> pid in db.products)
      && (forall u :: u in r.users ==> u in db.users)
      && (forall u :: u in db.users && Str(u.id) != id ==> u in r.users)
      && (IdsUnique(db.users) ==> FindUserById(r.users, id).None?)
      && r.users == DeleteUserById(db.users, id)
      && r.products == DeleteProductsOwnedBy(db.products, id)
  {
    var id := Get(data, "userId");
    var products := DeleteProductsOwnedBy(db.products, id);
    var users := DeleteUserById(db.users, id);
    DeleteRemovesWhenUnique(db.users, id);
    Db(users, products)
  }
}
